=== FILE: README.md ===
# Order book and resilient connection: a Dafny model

This project models the two parts of the Binance order-book client that carry logic:

- **The order-book engine.** There are two copies:
  - the web client's module `OrderBook` in `www/app/core/orderbook.ts`;
  - the terminal client's class `OrderBook` in `src/main.ts`.

  Each side of the book keeps two things:
  - an authoritative map from price level to quantity;
  - a duplicate-tolerant binary heap of candidate prices (`descend` for bids, `ascend` for asks).

  An update message is applied delta by delta. A quantity of 0 deletes the level. Any other quantity sets the level and pushes its price onto the heap unconditionally.

  A read pops five prices off each heap and looks each one up in the map. The read is destructive, and it never skips a stale or duplicate entry:
  - the web client (`list`) reports a missing quantity as 0;
  - the terminal client (`display`) asserts that it is there.

- **The resilient socket connection** of `www/app/.client/ws.client.ts`. It has:
  - a lifecycle (IDLE, CONNECTING, OPEN, CLOSING, CLOSED);
  - a budget of automatic reconnects on abnormal closure (code 1006);
  - an optional asynchronous hook that rewrites the query string before each reconnect;
  - a connect timeout per socket;
  - an event bus whose subscribers outlive every socket.

Files:

- `heap.dfy`:
  - `Wrappers.Option`.
  - `PriceHeap`, the heap as a priority queue. It is modelled by the sorted sequence of the prices it holds, best first.
- `orderbook.dfy`: `OrderBook`, the book and the application of update messages.
- `listing.dfy`: `Listing`, the web client's destructive read `list`.
- `cli.dfy`: `Cli`, the terminal client's `display`, with its assertion, and its message handler.
- `connection.dfy`: `Connection`. Every function of `ws.client.ts` is a pure transition, and each browser event is an explicit input (socket open, the server starting the closing handshake, close with a code, error, frame; a timer firing; the hook's promise settling).
- `connection_props.dfy`: `ConnectionProperties`, the properties of the connection over single events and whole runs.

Prices and quantities are the already-normalised integers: the decimal string multiplied by the scale factor 10.

The handlers of a replaced socket stay attached and keep acting on the shared connection. The connection model therefore keeps every socket ever created, by index. `raw` points at the current one.

## Model

| member | source | states |
|---|---|---|
| PriceHeap.Push | www/app/core/orderbook.ts:77 | `bestBids.push(level)` keeps the heap ordered. It holds one more entry, and its prices are the old ones plus the pushed one, even when that price is already present |
| PriceHeap.PushBag | www/app/core/orderbook.ts:76-78 | a push adds exactly one copy of the price to the heap's multiset and nothing else |
| PriceHeap.Pop | www/app/core/orderbook.ts:102 | `pop() \|\| 0`: a non-empty heap gives up one copy of a price at least as good as every price it holds, and the rest stays ordered; an empty heap yields price 0 and stays empty |
| PriceHeap.PopN | www/app/core/orderbook.ts:101-102 | repeated pops take exactly min(n, size) prices, best first; the taken prices followed by the rest are the original heap, and every taken price is at least as good as every price left |
| OrderBook.ApplyDelta | www/app/core/orderbook.ts:69-80 | a zero quantity removes the level, leaves the heap alone, and is a no-op for an absent level; any other quantity sets the level and grows the heap by one entry holding the price; no other level changes; "no zero quantity in the map" is preserved |
| OrderBook.ApplySide | www/app/core/orderbook.ts:66-94 | the deltas of one side applied in index order keep the heap ordered and keep the map free of zero quantities |
| OrderBook.ApplySidePushes | www/app/core/orderbook.ts:76-78 | a batch grows a side's heap by exactly one copy of the price of each non-removing delta |
| OrderBook.ApplySideLastWins | www/app/core/orderbook.ts:66-94 | after a batch, a level is what the last delta for that price says (absent if it removes); a price no delta mentions keeps its old entry |
| OrderBook.Apply | www/app/core/orderbook.ts:66-94 | a whole update message keeps both heaps ordered |
| OrderBook.ApplyUpdate | www/app/core/orderbook.ts:66-94 | the handler's loop to the longer list, applying the bid delta and then the ask delta at each index, equals applying each side's deltas on its own in index order; it keeps the book valid and zero-free (the same loop is `src/main.ts:106-134`) |
| OrderBook.ApplyDeltaTwice | www/app/core/orderbook.ts:76-78 | applying the same delta twice leaves the map as applying it once; a removal is idempotent outright, and a repeated setting leaves the heap with two more copies of the price than it had before either |
| OrderBook.SidesIndependent | www/app/core/orderbook.ts:66-94 | the bids after an update depend only on the old bids and the bid deltas, and likewise for the asks |
| Listing.Drain | www/app/core/orderbook.ts:106-112 | n pops off the bid heap (five in `list`) give exactly n rows; row i holds the i-th heap entry (price 0 once the heap is empty) with the map's quantity (0 when the map lacks the price); the heap loses its first min(n, size) entries |
| Listing.DrainTakesPopN | www/app/core/orderbook.ts:101-112 | the rows of a drain that come from real pops carry exactly the prices repeated pops take, in pop order, and the drain leaves the same heap as those pops |
| Listing.DrainAsks | www/app/core/orderbook.ts:100-105 | the asks are stored from the last index down to 0, so of n rows, row i holds pop number n - 1 - i (for n = 5, the best ask is last); the heap loses its first min(n, size) entries |
| Listing.ListAccountsForHeap | www/app/core/orderbook.ts:99-112 | a read loses no entry: on each side, the prices of the rows that came from real pops (the first bid rows, the last ask rows), together with the heap it leaves, are exactly the multiset of entries the heap held, stale and duplicate entries included |
| Listing.List | www/app/core/orderbook.ts:99-118 | `list` returns exactly five rows per side as stated by `Drain` and `DrainAsks`, leaves both maps unchanged and drops min(5, size) entries off each heap |
| Listing.ListBidsOrdered | www/app/core/orderbook.ts:106-112 | the bid rows that come from real pops run from highest to lowest, and the first bid is at least every bid on the heap |
| Listing.ListAsksOrdered | www/app/core/orderbook.ts:100-105 | the ask rows that come from real pops sit at the end and run from highest to lowest, and the last ask is at most every ask on the heap |
| Listing.ListLeaves | www/app/core/orderbook.ts:99-118 | the book a read leaves is the maps as they were and each heap without its first min(5, size) entries |
| Listing.RelistDrains | www/app/core/orderbook.ts:99-118 | after m reads with no update in between, each heap has lost its first min(5m, size) entries and the maps are unchanged |
| Listing.DrainedReadsArePlaceholders | www/app/core/orderbook.ts:101-111 | once reads have drained both heaps, every row of a further read has price 0, whatever the maps still hold |
| Listing.SingleLevelsRead | www/app/core/orderbook.ts:99-118 | one bid and one ask, each at a non-zero price with a non-zero quantity, on an empty book read as bid row 0 and ask row 4, with every other row at price 0 and quantity 0 |
| Listing.RemovedLevelIsListed | www/app/core/orderbook.ts:103 | on an empty book, an ask at 101 (10.1) that one message sets and then removes stays on the heap, and the next read reports it as the last of the ask rows, with quantity 0, instead of skipping it |
| Cli.CheckedDrain | src/main.ts:52-58 | the pops of `display` with the assertion after each: they complete exactly when every popped price has a level, and then give the same rows and remaining heap as the web client's read; otherwise they stop at the first missing price, which has been popped already |
| Cli.Display | src/main.ts:43-58 | `display` prints exactly when the assertion holds for all ten pops, and then shows and leaves exactly what `list` would. On failure the maps are intact, and the failing side's heap has lost its pops up to and including the first price without a level. A failure among the asks leaves the bids untouched; a failure among the bids comes after all five ask pops |
| Cli.DisplayDefinedIff | src/main.ts:46-55 | the assertion holds exactly when, on each side, the first min(5, size) heap entries all have levels, and a side with fewer than five heap entries has a level at price 0 |
| Cli.SideDisplayableIff | src/main.ts:46-55 | the same characterisation for one side's five pops |
| Cli.ShortHeapBreaksDisplay | src/main.ts:46-48 | a side with fewer than five heap entries and no level at price 0 makes the assertion fail |
| Cli.StaleEntryBreaksDisplay | src/main.ts:53-55 | a price with no level (a removed one) still among a side's first min(5, size) heap entries makes the assertion fail |
| Cli.HandleMessage | src/main.ts:99-137 | the terminal client's message handler is `display` of the updated book: it prints the web client's listing of that book exactly when every popped price has its level, and on failure the updated maps are kept with the heaps as far as `display` drained them |
| Cli.FirstSmallMessageBreaksDisplay | src/main.ts:44-48 | on an empty book, a first message with one bid at 105 and one ask at 106 already makes the assertion fail |
| Cli.RemovedAskBreaksFirstPop | src/main.ts:46-48 | on an empty book, an ask at 101 (10.1) that one message sets and then removes makes the very first ask pop fail the assertion |
| Connection.CreateConnection | www/app/.client/ws.client.ts:89-112 | a new connection is IDLE with no socket. Its attempts left equal the configured budget (default 5), its timeout is the given one (default 5000 ms), its query string comes from the params when given, and its bus has no subscribers |
| Connection.CloseIfOpen | www/app/.client/ws.client.ts:171-174 | only an open current socket starts closing; nothing else changes |
| Connection.Connect | www/app/.client/ws.client.ts:167-185 | `connect` starts closing the current socket only if it is open; a current socket that is still connecting, closing or closed is left exactly as it was. It then adds a new connecting socket with its timeout pending and makes it current. Every earlier socket is otherwise unchanged, and lifecycle, budget, hook, timeout, query string and subscribers are left alone |
| Connection.Reconnect | www/app/.client/ws.client.ts:114-143 | `reconnect` is a no-op while CONNECTING. Otherwise it first starts closing the current socket if it is open, leaving every other socket as it was, and the lifecycle becomes CONNECTING. With a hook, one hook call is in flight and no socket is created; without a hook, a new connecting socket is appended and becomes the current one. The budget, hook and timeout are untouched |
| Connection.RefreshReconnectAttempts | www/app/.client/ws.client.ts:148-158 | resets the attempts left to the budget, and reconnects exactly when a current socket exists and is closing or closed |
| Connection.Close | www/app/.client/ws.client.ts:225-229 | `close` only asks the current socket to close: the lifecycle and the attempts left do not change |
| Connection.AddListener | www/app/.client/ws.client.ts:257-264 | adds the subscription to the bus and changes nothing else |
| Connection.RemoveListener | www/app/.client/ws.client.ts:273-280 | removes the subscription from the bus and changes nothing else |
| Connection.OnOpen | www/app/.client/ws.client.ts:187-192 | the open event clears the socket's timeout, makes the connection OPEN and publishes `open` |
| Connection.OnClose | www/app/.client/ws.client.ts:194-211 | the close event publishes the close and marks that socket closed. With code 1006 and attempts left, it spends exactly one attempt and then runs `reconnect`, so an open current socket starts closing and the connection is CONNECTING again (a new current socket, or a hook call in flight). Otherwise the connection is CLOSED and nothing else changes. The query string, hook and timeout are kept on both paths |
| Connection.OnMessage | www/app/.client/ws.client.ts:213-216 | a frame is republished on the bus unchanged, and nothing else happens |
| Connection.OnError | www/app/.client/ws.client.ts:218-222 | an error clears the socket's timeout and publishes `error`; the lifecycle stays |
| Connection.OnTimeout | www/app/.client/ws.client.ts:180-185 | the timeout closes its socket only if it is still connecting, and is gone afterwards |
| Connection.OnClosingHandshake | www/app/.client/ws.client.ts:155 | a closing handshake the server starts moves only that socket to CLOSING, ahead of its close event; this is the ready state `refreshReconnectAttempts` tests. Nothing else changes and nothing is published |
| Connection.OnHookResolved | www/app/.client/ws.client.ts:132-136 | on hook success, its result replaces the query string and `connect` runs: a current socket that opened meanwhile starts closing, every other socket is kept, and a new connecting socket becomes current; lifecycle, budget, hook, timeout and subscribers are unchanged |
| Connection.OnHookRejected | www/app/.client/ws.client.ts:137-139 | on hook failure, nothing but the in-flight count changes: no socket, and the lifecycle stays |
| Connection.Step | www/app/.client/ws.client.ts:180-222 | an event the browser cannot deliver changes nothing and publishes nothing: a socket event for a socket in the wrong ready state, a timer that is no longer pending, a hook settling with none in flight |
| ConnectionProperties.CreateEstablishesInv | www/app/.client/ws.client.ts:97-110 | a new connection satisfies the counter invariant |
| ConnectionProperties.StepInv | www/app/.client/ws.client.ts:148-211 | every transition keeps `0 <= attemptsLeft <= reconnectAttempts` (for a non-negative budget), the current socket being the newest, and hooks in flight only when configured |
| ConnectionProperties.RunInv | www/app/.client/ws.client.ts:148-211 | every run of events keeps that invariant |
| ConnectionProperties.StepKeepsSubscribers | www/app/.client/ws.client.ts:257-280 | only adding or removing a listener changes the subscribers |
| ConnectionProperties.RunKeepsSubscribers | www/app/.client/ws.client.ts:242-249 | subscribers persist through any run without subscription changes, across any number of socket replacements |
| ConnectionProperties.StepSpends | www/app/.client/ws.client.ts:204-206 | apart from a refresh, only an automatic reconnect changes the attempts left, and it spends exactly one |
| ConnectionProperties.RunSpends | www/app/.client/ws.client.ts:204-206 | along a run without refresh, the automatic reconnects are exactly the attempts spent |
| ConnectionProperties.BoundedRetries | www/app/.client/ws.client.ts:204-210 | between two refreshes, at most as many automatic reconnects happen as attempts were left, hence at most the configured budget |
| ConnectionProperties.RunKeepsBudget | www/app/.client/ws.client.ts:107 | the configured budget never changes |
| ConnectionProperties.ReconnectGuard | www/app/.client/ws.client.ts:117-119 | while CONNECTING, a reconnect request changes nothing |
| ConnectionProperties.TimeoutFiresOnce | www/app/.client/ws.client.ts:180-192 | a socket's timeout fires at most once, and not at all after the socket opened |
| ConnectionProperties.StrandedStays | www/app/.client/ws.client.ts:130-139 | a connection left CONNECTING with no hook in flight and all sockets closed stays so under every event except an explicit `connect` |
| ConnectionProperties.RunStranded | www/app/.client/ws.client.ts:130-139 | the same over whole runs, with no socket created |
| ConnectionProperties.AbnormalCloseAwaitsHook | www/app/.client/ws.client.ts:194-211 | with a hook, an abnormal closure of the only live socket spends one attempt and waits CONNECTING on the hook, with every socket closed |
| ConnectionProperties.HookRejectionStrands | www/app/.client/ws.client.ts:137-139 | if that hook rejects, the connection is stranded |
| ConnectionProperties.RejectedHookStrandsForever | www/app/.client/ws.client.ts:128-139 | after an abnormal closure and a rejected hook, no sequence of events without `connect` leaves CONNECTING or creates a socket |
| ConnectionProperties.AbnormalCloseReconnects | www/app/.client/ws.client.ts:204-207 | closing with 1006 and three attempts left, with no hook, leaves two, CONNECTING and a new connecting socket |
| ConnectionProperties.NormalCloseSettles | www/app/.client/ws.client.ts:197-210 | closing with 1000 settles in CLOSED with no new socket, whatever budget is left |
| ConnectionProperties.RefreshRevivesClosed | www/app/.client/ws.client.ts:148-158 | a refresh after the socket has closed restores the budget and, without a hook, starts a new socket |
| ConnectionProperties.HandshakeThenRefreshReconnects | www/app/.client/ws.client.ts:148-158 | a refresh between the server's closing handshake and the close event, without a hook, restores the budget, reconnects and makes a new socket current; the old socket's close event is still to come and can still act on the connection |
| ConnectionProperties.ReconnectReplacesOpenSocket | www/app/.client/ws.client.ts:121-125 | a reconnect while open starts closing the open socket and makes a new socket current |
| ConnectionProperties.LateCloseOfReplacedSocket | www/app/.client/ws.client.ts:194-211 | the close event of a replaced socket still acts on the connection. With any code but 1006 it becomes CLOSED whatever the current socket does, and the current socket is unchanged. With 1006, budget left and no hook, it starts closing an open current socket |
| ConnectionProperties.FreshConnectionOpens | www/app/.client/ws.client.ts:128-192 | a new connection reaches the one-live-socket OPEN state by a reconnect (and, with a hook, its success) followed by the open event |

## Behaviour of the code worth knowing

- **Stale and duplicate entries in reads.** `list` pops stale and duplicate heap entries like any other and reports a stale one with quantity 0: see `Listing.RemovedLevelIsListed` and `Listing.ListAccountsForHeap`.
- **Missing rows in the terminal client.** `display` asserts that each popped price has a level, and never fills in a placeholder. The assertion fails on a side with fewer than five heap entries only when price 0 has no level. It fails on a stale entry only when that entry is among the side's first min(5, size) heap entries. `Cli.SideDisplayableIff` states exactly when it holds, and `Cli.ShortHeapBreaksDisplay` and `Cli.StaleEntryBreaksDisplay` are the two ways it fails.
- **When a refresh reconnects.** `refreshReconnectAttempts` tests the current socket's `readyState` (CLOSED or CLOSING), not the connection's state: see `Connection.RefreshReconnectAttempts`. A refresh that runs after the server began closing the socket but before its close event therefore reconnects at once: see `ConnectionProperties.HandshakeThenRefreshReconnects`.
- **`close` and the connect timer.** `close` does not clear the timer. The timer is cleared only when the socket's close, open or error event arrives, or when it fires: see `Connection.Close` and `Connection.OnTimeout`.
- **`connect` and the lifecycle.** `connect` does not set the lifecycle. Called directly on an IDLE connection, the connection stays IDLE until the open event: see `Connection.Connect`.
- **A connecting socket is not replaced cleanly.** `connect` closes only an open current socket. A socket that is still connecting keeps going alongside the new one, and its handlers still act on the connection: see `Connection.Connect` and `ConnectionProperties.LateCloseOfReplacedSocket`.

## Left out

- Re-entrant subscribers: the bus calls its subscribers synchronously inside the open, close, message and error handlers (ws.client.ts:191, 202, 215, 221). The model treats a subscriber as an inert (event kind, callback) pair and every handler as one atomic step, so it assumes no callback calls back into the connection during dispatch. A `close` subscriber that calls `reconnect` would make the handler spend an attempt and then find the connection already CONNECTING, which `OnClose` does not describe. The application's bus subscriber (connection.ts:24-26) only logs.
- Normalisation (`Number(value) * base`) and display formatting (`toFixed`, `Intl.NumberFormat`): these are floating point. The model works on the already-normalised integers and does not represent NaN, infinite or fractional values. Validation accepts any string, so in the program a price or quantity can be NaN. `shouldRemove(NaN)` is false, so such an entry is pushed onto the heap and stored in the map.
- zod validation and `JSON.parse`: these are foreign libraries, and an update is the validated `{b, a}` shape. A frame that fails validation is logged and leaves the book alone. This is not modelled, because it needs the parser.
- The truthiness test `if (validation.data.b[i])`: a validated tuple is always truthy, so it reduces to the index being within the list.
- `ulid()` row identifiers, `console.log` and the logger: output only.
- The web handler's `pubsub.dispatchEvent("refresh")`: nothing listens for the notification, and it has no effect on the book.
- `www/app/routes/home.tsx` is not part of this model. The page calls `list` on every raw socket message and on every render, so each of those drains both heaps further. `Listing.RelistDrains` states what repeated reads do to the book.
- The array layout of `BinaryHeap`: only its behaviour as a priority queue is observable.
- Real sockets, `setTimeout`/`clearTimeout` and promise scheduling: these become explicit events. The timeout's duration is stored but never measured.
- The URL beyond its query string, the parameters passed to the hook, and the code and reason passed to `close`: the close code reaches the model as the close event's parameter.
- Listener options (`once`, `signal`, capture): a subscription is a pair of event type and callback.
- `send`: a pass-through to the socket.
- `www/app/.client/connection.ts`, `www/workers/server.ts` and `www/vite.config.ts`: configuration, the HTTP worker and build tooling.
- The reconnect budget (`reconnectAttempts`, `attemptsLeft`) is modelled as an integer. In the program it is a JavaScript number. Fractional, NaN and infinite budgets are not modelled. A budget of 2.5 would allow three automatic reconnects and end at -0.5, and `Infinity` never runs out.
- ConnectionProperties.BoundedRetries: the bound is proved for integer budgets only, as is the counter invariant `ConnectionProperties.CounterOk` that `StepInv` keeps. A fractional or infinite budget in the program can exceed it.
- Connection.Step: its own contract states only that an undeliverable event changes nothing. What each event does is stated by the handler it dispatches to and by the lemmas of `ConnectionProperties`.
- OrderBook.Apply: its contract states only that the book stays valid. The contents are stated by `ApplySideLastWins`, `ApplySidePushes` and `ApplyUpdate`.
- OrderBook.ApplySide: its contract states only validity and the zero-free map. The contents are stated by `ApplySideLastWins` and `ApplySidePushes`.

=== FILE: cli.dfy ===
/**
 The terminal client's read path, `display`. It pops the same five entries per
 side as the web client's read, but instead of reading a missing quantity as 0 it
 asserts that every popped price still has a map entry. The assertion throws out
 of the message listener, and the heaps stay as far drained as the pops got.
 */
module Cli {
  import opened PriceHeap
  import opened OrderBook
  import opened Listing

  /** Every one of the first `n` pops off `h` yields a price the map holds. */
  predicate AllPresent(levels: map<int, int>, h: Heap, n: nat) {
    forall i :: 0 <= i < n ==> RowAt(levels, h, i).price in levels
  }

  /**
   Outcome of popping `n` times with the assertion after each pop: every pop found
   its quantity, or the pop at index `at` did not and the heap is left at `rest`.
   */
  datatype Checked = Complete(drained: Drained) | Failed(at: nat, rest: Heap)

  /**
   What a checked drain of `n` pops off `h` must be: complete exactly when every
   pop finds its price, and then the rows and remaining heap of the web client's
   `Drain`; otherwise failed at the first pop whose price is missing, with that
   pop already taken off the heap.
   */
  predicate Accounts(levels: map<int, int>, h: Heap, n: nat, c: Checked) {
    (c.Complete? <==> AllPresent(levels, h, n)) &&
    (c.Complete? ==>
       |c.drained.rows| == n && c.drained.rest == h[Min(n, |h|)..] &&
       forall i :: 0 <= i < n ==> c.drained.rows[i] == RowAt(levels, h, i)) &&
    (c.Failed? ==>
       c.at < n && RowAt(levels, h, c.at).price !in levels &&
       (forall j :: 0 <= j < c.at ==> RowAt(levels, h, j).price in levels) &&
       c.rest == h[Min(c.at + 1, |h|)..])
  }

  /** A successful first pop, put in front of the outcome of the remaining pops. */
  function Extend(first: Row, c: Checked): Checked {
    match c
    case Complete(d) => Complete(Drained([first] + d.rows, d.rest))
    case Failed(at, rest) => Failed(at + 1, rest)
  }

  /**
   Pops `n` times off `h`, asserting after each pop that the price is in `levels`.
   When every assertion holds, the rows and the remaining heap are exactly those of
   the web client's `Drain`. Otherwise the first pop whose price is missing stops the
   drain, with that pop already taken off the heap.
   */
  function CheckedDrain(o: Order, levels: map<int, int>, h: Heap, n: nat): (c: Checked)
    requires Sorted(o, h)
    ensures Accounts(levels, h, n, c)
    ensures c.Complete? <==> AllPresent(levels, h, n)
    ensures c.Complete? ==> |c.drained.rows| == n && c.drained.rest == h[Min(n, |h|)..]
    ensures c.Complete? ==> forall i :: 0 <= i < n ==> c.drained.rows[i] == RowAt(levels, h, i)
    ensures c.Failed? ==> c.at < n && RowAt(levels, h, c.at).price !in levels
    ensures c.Failed? ==> forall j :: 0 <= j < c.at ==> RowAt(levels, h, j).price in levels
    ensures c.Failed? ==> c.rest == h[Min(c.at + 1, |h|)..]
    decreases n
  {
    if n == 0 then Complete(Drained([], h))
    else
      var p := Pop(o, h);
      if p.price !in levels then
        FirstPopFails(o, levels, h, n);
        Failed(0, p.rest)
      else
        var c := CheckedDrain(o, levels, p.rest, n - 1);
        ExtendStep(o, levels, h, n, c);
        Extend(Row(p.price, levels[p.price]), c)
  }

  /** A first pop whose price is missing fails the drain at once. */
  lemma FirstPopFails(o: Order, levels: map<int, int>, h: Heap, n: nat)
    requires Sorted(o, h) && n > 0 && Pop(o, h).price !in levels
    ensures Accounts(levels, h, n, Failed(0, Pop(o, h).rest))
  {
    assert RowAt(levels, h, 0).price == Pop(o, h).price;
  }

  /** A successful first pop followed by an accounted drain of the rest is an accounted drain. */
  lemma ExtendStep(o: Order, levels: map<int, int>, h: Heap, n: nat, c: Checked)
    requires Sorted(o, h) && n > 0 && Pop(o, h).price in levels
    requires Accounts(levels, Pop(o, h).rest, n - 1, c)
    ensures Accounts(levels, h, n, Extend(Row(Pop(o, h).price, levels[Pop(o, h).price]), c))
  {
    AllPresentStep(o, levels, h, n);
    match c
    case Complete(d) =>
      CompleteStep(o, levels, h, n, d);
    case Failed(at, rest) =>
      FailedStep(o, levels, h, n, at);
  }

  /** A complete drain of what is left after a successful first pop extends to a complete drain. */
  lemma CompleteStep(o: Order, levels: map<int, int>, h: Heap, n: nat, d: Drained)
    requires Sorted(o, h) && n > 0 && Pop(o, h).price in levels
    requires |d.rows| == n - 1 && d.rest == Pop(o, h).rest[Min(n - 1, |Pop(o, h).rest|)..]
    requires forall i :: 0 <= i < n - 1 ==> d.rows[i] == RowAt(levels, Pop(o, h).rest, i)
    ensures var rows := [Row(Pop(o, h).price, levels[Pop(o, h).price])] + d.rows;
            forall i :: 0 <= i < n ==> rows[i] == RowAt(levels, h, i)
    ensures d.rest == h[Min(n, |h|)..]
  {
    var p := Pop(o, h);
    var rows := [Row(p.price, levels[p.price])] + d.rows;
    ShiftRowAt(o, levels, h, n);
    forall i | 0 <= i < n
      ensures rows[i] == RowAt(levels, h, i)
    {
      if i > 0 {
        assert rows[i] == d.rows[i - 1];
      }
    }
  }

  /** A failure at `at` in what is left after a successful first pop is a failure at `at + 1`. */
  lemma FailedStep(o: Order, levels: map<int, int>, h: Heap, n: nat, at: nat)
    requires Sorted(o, h) && n > 0 && Pop(o, h).price in levels
    requires forall j :: 0 <= j < at ==> RowAt(levels, Pop(o, h).rest, j).price in levels
    requires at < n - 1
    ensures forall j :: 0 <= j < at + 1 ==> RowAt(levels, h, j).price in levels
    ensures RowAt(levels, h, at + 1) == RowAt(levels, Pop(o, h).rest, at)
    ensures Pop(o, h).rest[Min(at + 1, |Pop(o, h).rest|)..] == h[Min(at + 2, |h|)..]
  {
    ShiftRowAt(o, levels, h, n);
    forall j | 0 <= j < at + 1
      ensures RowAt(levels, h, j).price in levels
    {
      if j > 0 {
        assert RowAt(levels, h, j) == RowAt(levels, Pop(o, h).rest, j - 1);
      }
    }
  }

  /** The assertion holds for `n` pops exactly when it holds for the first and for `n - 1` more. */
  lemma AllPresentStep(o: Order, levels: map<int, int>, h: Heap, n: nat)
    requires Sorted(o, h) && n > 0
    ensures AllPresent(levels, h, n) <==>
              Pop(o, h).price in levels && AllPresent(levels, Pop(o, h).rest, n - 1)
  {
    var p := Pop(o, h);
    ShiftRowAt(o, levels, h, n);
    assert RowAt(levels, h, 0).price == p.price;
    if AllPresent(levels, h, n) {
      forall i | 0 <= i < n - 1
        ensures RowAt(levels, p.rest, i).price in levels
      {
        assert RowAt(levels, h, i + 1).price in levels;
      }
    }
    if p.price in levels && AllPresent(levels, p.rest, n - 1) {
      forall i | 0 <= i < n
        ensures RowAt(levels, h, i).price in levels
      {
        if i > 0 {
          assert RowAt(levels, p.rest, i - 1).price in levels;
        }
      }
    }
  }

  /** What `display` ends in: the two printed lists, or the failed assertion. */
  datatype Shown = Printed(snapshot: Snapshot) | AssertionFailed(book: Book)

  /** The assertion in `display` holds for every pop on both sides. */
  predicate DisplayDefined(b: Book) {
    AllPresent(b.asks.levels, b.asks.heap, Rows) && AllPresent(b.bids.levels, b.bids.heap, Rows)
  }

  /**
   The terminal client's `display`: asks first, five pops into indices 4 down to 0,
   then bids, five pops into indices 0 to 4, each pop followed by the assertion.
   It prints exactly when the assertion never fails, and then shows and leaves
   exactly what the web client's read would. When it fails, the maps are intact,
   the failing side has lost its pops up to and including the failing one, and a
   failure among the asks leaves the bids untouched.
   */
  function Display(b: Book): (r: Shown)
    requires ValidBook(b)
    ensures r.Printed? <==> DisplayDefined(b)
    ensures r.Printed? ==> r.snapshot == List(b)
    ensures r.AssertionFailed? ==> r.book.asks.levels == b.asks.levels && r.book.bids.levels == b.bids.levels
    ensures r.AssertionFailed? && !AllPresent(b.asks.levels, b.asks.heap, Rows) ==> r.book.bids == b.bids
    ensures var ca := CheckedDrain(AskOrder, b.asks.levels, b.asks.heap, Rows);
            ca.Failed? ==> r == AssertionFailed(Book(b.bids, Side(b.asks.levels, ca.rest)))
    ensures var cb := CheckedDrain(BidOrder, b.bids.levels, b.bids.heap, Rows);
            AllPresent(b.asks.levels, b.asks.heap, Rows) && cb.Failed? ==>
              r == AssertionFailed(Book(Side(b.bids.levels, cb.rest),
                                        Side(b.asks.levels, b.asks.heap[Min(Rows, |b.asks.heap|)..])))
  {
    match CheckedDrain(AskOrder, b.asks.levels, b.asks.heap, Rows)
    case Failed(_, rest) => AssertionFailed(Book(b.bids, Side(b.asks.levels, rest)))
    case Complete(a) =>
      var asks := Side(b.asks.levels, a.rest);
      match CheckedDrain(BidOrder, b.bids.levels, b.bids.heap, Rows)
      case Failed(_, rest) => AssertionFailed(Book(Side(b.bids.levels, rest), asks))
      case Complete(d) =>
        CompleteDrainsList(b, a, d);
        Printed(Snapshot(View(StoreBackwards(a.rows), d.rows), Book(Side(b.bids.levels, d.rest), asks)))
  }

  /** `asks[i]` for `i` from 4 down to 0, in pop order: the popped rows back to front. */
  function StoreBackwards(popped: seq<Row>): seq<Row>
    requires |popped| == Rows
  {
    seq(Rows, i requires 0 <= i < Rows => popped[Rows - 1 - i])
  }

  /** Rows stored from the last index down hold the pops back to front. */
  lemma StoredBackwards(levels: map<int, int>, h: Heap, popped: seq<Row>, rows: seq<Row>)
    requires |popped| == Rows && forall i :: 0 <= i < Rows ==> popped[i] == RowAt(levels, h, i)
    requires |rows| == Rows && forall i :: 0 <= i < Rows ==> rows[i] == popped[Rows - 1 - i]
    ensures forall i :: 0 <= i < Rows ==> rows[i] == RowAt(levels, h, Rows - 1 - i)
  {
    forall i | 0 <= i < Rows
      ensures rows[i] == RowAt(levels, h, Rows - 1 - i)
    {
      assert rows[i] == popped[Rows - 1 - i];
    }
  }

  /** Two complete checked drains show and leave exactly what `list` would. */
  lemma CompleteDrainsList(b: Book, a: Drained, d: Drained)
    requires ValidBook(b)
    requires |a.rows| == Rows && a.rest == b.asks.heap[Min(Rows, |b.asks.heap|)..]
    requires forall i :: 0 <= i < Rows ==> a.rows[i] == RowAt(b.asks.levels, b.asks.heap, i)
    requires |d.rows| == Rows && d.rest == b.bids.heap[Min(Rows, |b.bids.heap|)..]
    requires forall i :: 0 <= i < Rows ==> d.rows[i] == RowAt(b.bids.levels, b.bids.heap, i)
    ensures Snapshot(View(StoreBackwards(a.rows), d.rows), Book(Side(b.bids.levels, d.rest), Side(b.asks.levels, a.rest)))
            == List(b)
  {
    var shown := Snapshot(View(StoreBackwards(a.rows), d.rows), Book(Side(b.bids.levels, d.rest), Side(b.asks.levels, a.rest)));
    StoredBackwards(b.asks.levels, b.asks.heap, a.rows, StoreBackwards(a.rows));
    assert ListedAs(b, shown);
    ListedOnce(b, shown, List(b));
  }

  /**
   When the assertion holds, exactly: on each side, each of the first min(5, size)
   heap entries is in the map, and a side whose heap holds fewer than five entries
   has a map entry for price 0, the price an empty heap pops as.
   */
  predicate SideDisplayable(s: Side) {
    (forall i :: 0 <= i < Min(Rows, |s.heap|) ==> s.heap[i] in s.levels) &&
    (|s.heap| < Rows ==> 0 in s.levels)
  }

  lemma DisplayDefinedIff(b: Book)
    ensures DisplayDefined(b) <==> SideDisplayable(b.asks) && SideDisplayable(b.bids)
  {
    SideDisplayableIff(b.asks);
    SideDisplayableIff(b.bids);
  }

  lemma SideDisplayableIff(s: Side)
    ensures AllPresent(s.levels, s.heap, Rows) <==> SideDisplayable(s)
  {
    if AllPresent(s.levels, s.heap, Rows) {
      forall i | 0 <= i < Min(Rows, |s.heap|)
        ensures s.heap[i] in s.levels
      {
        assert RowAt(s.levels, s.heap, i).price == s.heap[i];
      }
      if |s.heap| < Rows {
        assert RowAt(s.levels, s.heap, Rows - 1).price == 0;
      }
    }
  }

  /**
   First way the assertion fails: a side holds fewer than five heap entries, so a
   pop comes back empty and reads as price 0, which the map does not hold.
   */
  lemma ShortHeapBreaksDisplay(b: Book)
    requires ValidBook(b)
    requires (|b.asks.heap| < Rows && 0 !in b.asks.levels) || (|b.bids.heap| < Rows && 0 !in b.bids.levels)
    ensures Display(b).AssertionFailed?
  {
    DisplayDefinedIff(b);
  }

  /**
   Second way: a removed price is still on the heap among the entries a read pops,
   because removing a level leaves the heap alone.
   */
  lemma StaleEntryBreaksDisplay(b: Book, i: nat)
    requires ValidBook(b)
    requires (i < Min(Rows, |b.asks.heap|) && b.asks.heap[i] !in b.asks.levels) ||
             (i < Min(Rows, |b.bids.heap|) && b.bids.heap[i] !in b.bids.levels)
    ensures Display(b).AssertionFailed?
  {
    DisplayDefinedIff(b);
  }

  /**
   The terminal client's message handler: apply the batch delta by delta, then
   display. The book it leaves is the updated book after the display's pops, and it
   prints exactly when every popped price of the updated book has its level.
   */
  method HandleMessage(book: Book, u: Update) returns (r: Shown)
    requires ValidBook(book)
    ensures r.Printed? <==> DisplayDefined(Apply(book, u))
    ensures r.Printed? ==> r.snapshot == List(Apply(book, u))
    ensures r.AssertionFailed? ==> r.book.bids.levels == ApplySide(BidOrder, book.bids, u.b).levels
    ensures r.AssertionFailed? ==> r.book.asks.levels == ApplySide(AskOrder, book.asks, u.a).levels
    ensures r == Display(Apply(book, u))
  {
    var updated := ApplyUpdate(book, u);
    r := Display(updated);
  }

  /**
   A first message on an empty book with one bid at 10.5 and one ask at 10.6
   (normalised to 105 and 106) already breaks the terminal client: the second ask
   pop finds the heap empty and price 0 has no level.
   */
  lemma FirstSmallMessageBreaksDisplay()
    ensures Display(Apply(EmptyBook, Update([Delta(105, 20)], [Delta(106, 10)]))).AssertionFailed?
  {
    var b := Apply(EmptyBook, Update([Delta(105, 20)], [Delta(106, 10)]));
    assert b.asks.heap == [106];
    ShortHeapBreaksDisplay(b);
  }

  /**
   A removed level whose price is still on the heap breaks the terminal client on
   the very first pop, before any pop can come back empty: an ask at 10.1 is set
   and then removed.
   */
  lemma RemovedAskBreaksFirstPop()
    ensures var b := Apply(EmptyBook, Update([], [Delta(101, 10), Delta(101, 0)]));
            var c := CheckedDrain(AskOrder, b.asks.levels, b.asks.heap, Rows);
            c.Failed? && c.at == 0 && Display(b).AssertionFailed?
  {
    var u := Update([], [Delta(101, 10), Delta(101, 0)]);
    assert u.a[..1] == [Delta(101, 10)] && u.a[..1][..0] == [];
    assert ApplySide(AskOrder, EmptySide, []) == EmptySide;
    var first := ApplySide(AskOrder, EmptySide, u.a[..1]);
    assert first == ApplyDelta(AskOrder, EmptySide, Delta(101, 10));
    assert first.heap == [101];
    var b := Apply(EmptyBook, u);
    assert b.asks == ApplyDelta(AskOrder, first, Delta(101, 0));
    assert b.asks.heap == [101] && 101 !in b.asks.levels;
  }
}

=== FILE: connection.dfy ===
/**
 The web client's resilient socket connection: a lifecycle state, a bounded
 budget of automatic reconnects, an optional asynchronous hook that rewrites the
 query string before each reconnect, a connect-timeout per socket, and an event
 bus whose subscribers outlive every socket.

 Every handler is a pure transition. The browser's side of things (a socket
 opening, closing with a code, erroring, delivering a frame; a timer firing; the
 hook's promise settling) arrives as an explicit event. Sockets are never
 forgotten: the handlers of a replaced socket stay attached and still act on the
 shared connection, so every socket ever created is kept, by index.
 */
module Connection {
  import opened Wrappers

  /** Automatic reconnects allowed when the options name none. */
  const DefaultReconnectAttempts: int := 5

  /** Connect timeout, in milliseconds, when the options name none. */
  const DefaultTimeoutMillis: int := 5000

  /** Close code of an abnormal closure, the only one that triggers a reconnect. */
  const AbnormalClosure: int := 1006

  /** Close code of a normal closure. */
  const NormalClosure: int := 1000

  /** The connection's own lifecycle (`state`), IDLE before the first connect. */
  datatype Lifecycle = Idle | Connecting | Open | Closing | Closed

  /** A socket's `readyState`. */
  datatype ReadyState = SocketConnecting | SocketOpen | SocketClosing | SocketClosed

  /** A socket and whether its connect-timeout timer is still pending. */
  datatype Socket = Socket(ready: ReadyState, timerPending: bool)

  /** A bus subscription: the event type and the callback's identity. */
  datatype Listener = Listener(kind: string, callback: nat)

  /** What the bus publishes to its subscribers. */
  datatype BusEvent = BusOpen | BusClose(code: int) | BusMessage(data: string) | BusError

  /** The options `createConnection` reads; `search` is the query string of the given URL. */
  datatype Options = Options(
    search: string,
    params: Option<string>,
    timeoutMillis: Option<int>,
    hasHook: bool,
    reconnectAttempts: Option<int>)

  datatype Connection = Connection(
    search: string,
    state: Lifecycle,
    sockets: seq<Socket>,
    raw: Option<nat>,
    timeoutMillis: int,
    reconnectAttempts: int,
    attemptsLeft: int,
    hasHook: bool,
    pendingHooks: nat,
    subscribers: set<Listener>)

  /** A connection after a transition, with what the bus published during it. */
  datatype Outcome = Outcome(conn: Connection, bus: seq<BusEvent>)

  /** `connection.raw`: the current socket, if there is one. */
  function Raw(c: Connection): Option<Socket> {
    if c.raw.Some? && c.raw.value < |c.sockets| then Some(c.sockets[c.raw.value]) else None
  }

  /** `x ?? fallback`. */
  function OrElse(x: Option<int>, fallback: int): (r: int)
    ensures x.None? ==> r == fallback
    ensures x.Some? ==> r == x.value
  {
    match x
    case None => fallback
    case Some(v) => v
  }

  /**
   `createConnection`: IDLE, no socket, the full reconnect budget, the given or
   default timeout, the options' params (if any) as the query string, and an
   empty bus.
   */
  function CreateConnection(opts: Options): (c: Connection)
    ensures c.state == Idle && c.raw == None && c.sockets == []
    ensures c.reconnectAttempts == c.attemptsLeft
    ensures opts.reconnectAttempts.None? ==> c.attemptsLeft == DefaultReconnectAttempts
    ensures opts.reconnectAttempts.Some? ==> c.attemptsLeft == opts.reconnectAttempts.value
    ensures opts.timeoutMillis.None? ==> c.timeoutMillis == DefaultTimeoutMillis
    ensures opts.timeoutMillis.Some? ==> c.timeoutMillis == opts.timeoutMillis.value
    ensures c.search == if opts.params.Some? then opts.params.value else opts.search
    ensures c.hasHook == opts.hasHook && c.pendingHooks == 0 && c.subscribers == {}
  {
    var attempts := OrElse(opts.reconnectAttempts, DefaultReconnectAttempts);
    Connection(
      search := if opts.params.Some? then opts.params.value else opts.search,
      state := Idle,
      sockets := [],
      raw := None,
      timeoutMillis := OrElse(opts.timeoutMillis, DefaultTimeoutMillis),
      reconnectAttempts := attempts,
      attemptsLeft := attempts,
      hasHook := opts.hasHook,
      pendingHooks := 0,
      subscribers := {})
  }

  /** `ws.close()`: a connecting or open socket starts closing; otherwise nothing happens. */
  function CloseSocket(s: Socket): (r: Socket)
    ensures r.timerPending == s.timerPending
    ensures s.ready == SocketConnecting || s.ready == SocketOpen ==> r.ready == SocketClosing
    ensures s.ready == SocketClosing || s.ready == SocketClosed ==> r == s
  {
    if s.ready == SocketConnecting || s.ready == SocketOpen then s.(ready := SocketClosing) else s
  }

  /** The socket at index `k` replaced by `s`. */
  function SetSocket(c: Connection, k: nat, s: Socket): (r: Connection)
    requires k < |c.sockets|
    ensures |r.sockets| == |c.sockets| && r.sockets[k] == s
    ensures forall j :: 0 <= j < |c.sockets| && j != k ==> r.sockets[j] == c.sockets[j]
    ensures r == c.(sockets := r.sockets)
  {
    c.(sockets := c.sockets[k := s])
  }

  /** Which socket `CloseIfOpen` closes depends only on the sockets and which one is current. */
  lemma SameSocketsClose(c: Connection, d: Connection)
    requires c.sockets == d.sockets && c.raw == d.raw
    ensures CloseIfOpen(c).sockets == CloseIfOpen(d).sockets
  {
  }

  /** Closes the current socket if it is open, as `connect` and `reconnect` do first. */
  function CloseIfOpen(c: Connection): (r: Connection)
    ensures r == c.(sockets := r.sockets) && |r.sockets| == |c.sockets|
    ensures Raw(c).Some? && Raw(c).value.ready == SocketOpen ==>
              Raw(r) == Some(Socket(SocketClosing, Raw(c).value.timerPending))
    ensures !(Raw(c).Some? && Raw(c).value.ready == SocketOpen) ==> r == c
    ensures forall j :: 0 <= j < |c.sockets| && Some(j) != c.raw ==> r.sockets[j] == c.sockets[j]
    ensures Raw(c).Some? ==> Raw(r).Some? && Raw(r).value.ready != SocketOpen
  {
    match Raw(c)
    case Some(s) =>
      if s.ready == SocketOpen then SetSocket(c, c.raw.value, CloseSocket(s)) else c
    case None => c
  }

  /**
   `connect`: closes the current socket if it is open, then creates a new socket,
   connecting, with its timeout pending, and makes it the current one. A current
   socket that is still connecting is left alone and races the new one. Lifecycle,
   budget, hook, timeout and subscribers are left alone.
   */
  function Connect(c: Connection): (r: Connection)
    ensures |r.sockets| == |c.sockets| + 1
    ensures r.raw == Some(|c.sockets|) && Raw(r) == Some(Socket(SocketConnecting, true))
    ensures forall j :: 0 <= j < |c.sockets| && Some(j) != c.raw ==> r.sockets[j] == c.sockets[j]
    ensures Raw(c).Some? && Raw(c).value.ready == SocketOpen ==>
              r.sockets[c.raw.value] == Socket(SocketClosing, Raw(c).value.timerPending)
    ensures Raw(c).Some? && Raw(c).value.ready != SocketOpen ==> r.sockets[c.raw.value] == Raw(c).value
    ensures r.sockets[..|c.sockets|] == CloseIfOpen(c).sockets
    ensures r.state == c.state && r.attemptsLeft == c.attemptsLeft && r.reconnectAttempts == c.reconnectAttempts
    ensures r.subscribers == c.subscribers && r.search == c.search && r.pendingHooks == c.pendingHooks
    ensures r.hasHook == c.hasHook && r.timeoutMillis == c.timeoutMillis
  {
    var closed := CloseIfOpen(c);
    closed.(sockets := closed.sockets + [Socket(SocketConnecting, true)], raw := Some(|closed.sockets|))
  }

  /**
   `reconnect`: nothing at all while CONNECTING. Otherwise it closes the current
   socket if open and becomes CONNECTING; with a hook it then waits for the hook's
   promise, without one it connects at once. The budget is not touched.
   */
  function Reconnect(c: Connection): (r: Connection)
    ensures c.state == Connecting ==> r == c
    ensures c.state != Connecting ==> r.state == Connecting
    ensures c.state != Connecting && c.hasHook ==>
              r.pendingHooks == c.pendingHooks + 1 && |r.sockets| == |c.sockets| && r.raw == c.raw
    ensures c.state != Connecting && !c.hasHook ==>
              |r.sockets| == |c.sockets| + 1 && Raw(r) == Some(Socket(SocketConnecting, true)) &&
              r.pendingHooks == c.pendingHooks
    ensures c.state != Connecting && !c.hasHook ==>
              r.raw == Some(|c.sockets|) && r.sockets[|c.sockets|] == Socket(SocketConnecting, true)
    ensures c.state != Connecting && c.hasHook ==> r.sockets == CloseIfOpen(c).sockets
    ensures c.state != Connecting && !c.hasHook ==> r.sockets[..|c.sockets|] == CloseIfOpen(c).sockets
    ensures r.attemptsLeft == c.attemptsLeft && r.reconnectAttempts == c.reconnectAttempts
    ensures r.subscribers == c.subscribers && r.search == c.search && r.hasHook == c.hasHook
    ensures r.timeoutMillis == c.timeoutMillis
  {
    if c.state == Connecting then c
    else
      var ready := CloseIfOpen(c).(state := Connecting);
      if c.hasHook then ready.(pendingHooks := ready.pendingHooks + 1) else Connect(ready)
  }

  /**
   `refreshReconnectAttempts`: restores the full budget, and reconnects when there
   is a current socket and it is closing or closed.
   */
  function RefreshReconnectAttempts(c: Connection): (r: Connection)
    ensures r.attemptsLeft == c.reconnectAttempts && r.reconnectAttempts == c.reconnectAttempts
    ensures Raw(c).Some? && Raw(c).value.ready in {SocketClosing, SocketClosed} ==>
              r == Reconnect(c.(attemptsLeft := c.reconnectAttempts))
    ensures !(Raw(c).Some? && Raw(c).value.ready in {SocketClosing, SocketClosed}) ==>
              r == c.(attemptsLeft := c.reconnectAttempts)
  {
    var reset := c.(attemptsLeft := c.reconnectAttempts);
    match Raw(c)
    case None => reset
    case Some(s) => if s.ready == SocketClosed || s.ready == SocketClosing then Reconnect(reset) else reset
  }

  /**
   `close`: asks the current socket to close. The lifecycle and the budget change
   only later, when the socket's close event arrives.
   */
  function Close(c: Connection): (r: Connection)
    ensures r == c.(sockets := r.sockets) && r.raw == c.raw && |r.sockets| == |c.sockets|
    ensures r.state == c.state && r.attemptsLeft == c.attemptsLeft
    ensures Raw(c).Some? ==> Raw(r) == Some(CloseSocket(Raw(c).value))
    ensures forall j :: 0 <= j < |c.sockets| && Some(j) != c.raw ==> r.sockets[j] == c.sockets[j]
  {
    match Raw(c)
    case None => c
    case Some(s) => SetSocket(c, c.raw.value, CloseSocket(s))
  }

  /** `addEventListener` on the bus. */
  function AddListener(c: Connection, l: Listener): (r: Connection)
    ensures r.subscribers == c.subscribers + {l}
    ensures r == c.(subscribers := r.subscribers)
  {
    c.(subscribers := c.subscribers + {l})
  }

  /** `removeEventListener` on the bus. */
  function RemoveListener(c: Connection, l: Listener): (r: Connection)
    ensures r.subscribers == c.subscribers - {l}
    ensures r == c.(subscribers := r.subscribers)
  {
    c.(subscribers := c.subscribers - {l})
  }

  /** Socket `k`'s open event: its timer is cleared, the connection is OPEN, the bus hears `open`. */
  function OnOpen(c: Connection, k: nat): (o: Outcome)
    requires k < |c.sockets|
    ensures |o.conn.sockets| == |c.sockets|
    ensures o.conn.state == Open && o.conn.sockets[k] == Socket(SocketOpen, false)
    ensures o.bus == [BusOpen]
    ensures o.conn == c.(state := Open, sockets := o.conn.sockets)
    ensures forall j :: 0 <= j < |c.sockets| && j != k ==> o.conn.sockets[j] == c.sockets[j]
  {
    Outcome(SetSocket(c, k, Socket(SocketOpen, false)).(state := Open), [BusOpen])
  }

  /**
   Socket `k`'s close event with `code`: its timer is cleared, the connection is
   CLOSING and the bus hears the close. An abnormal closure with budget left
   spends one attempt and reconnects; anything else leaves the connection CLOSED
   with its budget untouched.
   */
  function OnClose(c: Connection, k: nat, code: int): (o: Outcome)
    requires k < |c.sockets|
    ensures o.bus == [BusClose(code)]
    ensures o.conn.subscribers == c.subscribers && o.conn.reconnectAttempts == c.reconnectAttempts
    ensures code == AbnormalClosure && c.attemptsLeft > 0 ==>
              o.conn.attemptsLeft == c.attemptsLeft - 1 && o.conn.state == Connecting
    ensures code == AbnormalClosure && c.attemptsLeft > 0 && !c.hasHook ==>
              |o.conn.sockets| == |c.sockets| + 1 && Raw(o.conn) == Some(Socket(SocketConnecting, true))
    ensures code == AbnormalClosure && c.attemptsLeft > 0 && !c.hasHook ==>
              o.conn.raw == Some(|c.sockets|) && o.conn.sockets[|c.sockets|] == Socket(SocketConnecting, true)
    ensures code == AbnormalClosure && c.attemptsLeft > 0 ==>
              o.conn == Reconnect(SetSocket(c, k, Socket(SocketClosed, false)).(state := Closing, attemptsLeft := c.attemptsLeft - 1))
    ensures code == AbnormalClosure && c.attemptsLeft > 0 ==>
              o.conn.sockets[..|c.sockets|] == CloseIfOpen(SetSocket(c, k, Socket(SocketClosed, false))).sockets
    ensures code == AbnormalClosure && c.attemptsLeft > 0 && c.hasHook ==>
              o.conn.pendingHooks == c.pendingHooks + 1 && |o.conn.sockets| == |c.sockets|
    ensures !(code == AbnormalClosure && c.attemptsLeft > 0) ==>
              o.conn.state == Closed && o.conn.attemptsLeft == c.attemptsLeft &&
              |o.conn.sockets| == |c.sockets| && o.conn.pendingHooks == c.pendingHooks
    ensures !(code == AbnormalClosure && c.attemptsLeft > 0) ==>
              o.conn == c.(sockets := c.sockets[k := Socket(SocketClosed, false)], state := Closed)
    ensures o.conn.sockets[k] == Socket(SocketClosed, false)
    ensures o.conn.search == c.search && o.conn.hasHook == c.hasHook && o.conn.timeoutMillis == c.timeoutMillis
  {
    var closed := SetSocket(c, k, Socket(SocketClosed, false));
    var closing := closed.(state := Closing);
    if code == AbnormalClosure && closing.attemptsLeft > 0 then
      var spent := closing.(attemptsLeft := closing.attemptsLeft - 1);
      SameSocketsClose(spent, closed);
      Outcome(Reconnect(spent), [BusClose(code)])
    else
      Outcome(closing.(state := Closed), [BusClose(code)])
  }

  /** A frame on socket `k`: republished on the bus unchanged, nothing else happens. */
  function OnMessage(c: Connection, k: nat, data: string): (o: Outcome)
    requires k < |c.sockets|
    ensures o.conn == c && o.bus == [BusMessage(data)]
  {
    Outcome(c, [BusMessage(data)])
  }

  /** An error on socket `k`: its timer is cleared and the bus hears `error`; the lifecycle stays. */
  function OnError(c: Connection, k: nat): (o: Outcome)
    requires k < |c.sockets|
    ensures o.conn == c.(sockets := o.conn.sockets) && o.bus == [BusError]
    ensures |o.conn.sockets| == |c.sockets|
    ensures o.conn.sockets[k] == c.sockets[k].(timerPending := false)
    ensures forall j :: 0 <= j < |c.sockets| && j != k ==> o.conn.sockets[j] == c.sockets[j]
  {
    Outcome(SetSocket(c, k, c.sockets[k].(timerPending := false)), [BusError])
  }

  /**
   Socket `k`'s connect timeout fires (once): the socket is closed if it is still
   connecting and left alone otherwise; the lifecycle and budget do not move.
   */
  function OnTimeout(c: Connection, k: nat): (o: Outcome)
    requires k < |c.sockets|
    ensures o.conn == c.(sockets := o.conn.sockets) && o.bus == []
    ensures |o.conn.sockets| == |c.sockets|
    ensures !o.conn.sockets[k].timerPending
    ensures c.sockets[k].ready == SocketConnecting ==> o.conn.sockets[k].ready == SocketClosing
    ensures c.sockets[k].ready != SocketConnecting ==> o.conn.sockets[k].ready == c.sockets[k].ready
    ensures forall j :: 0 <= j < |c.sockets| && j != k ==> o.conn.sockets[j] == c.sockets[j]
  {
    var s := c.sockets[k].(timerPending := false);
    Outcome(SetSocket(c, k, if s.ready == SocketConnecting then CloseSocket(s) else s), [])
  }

  /**
   The hook's promise resolves with `params`: they become the query string, then
   `connect`, which closes the current socket if it opened while the hook was
   pending and makes a new socket current.
   */
  function OnHookResolved(c: Connection, params: string): (r: Connection)
    requires c.pendingHooks > 0
    ensures r.search == params && r.pendingHooks == c.pendingHooks - 1
    ensures |r.sockets| == |c.sockets| + 1 && Raw(r) == Some(Socket(SocketConnecting, true))
    ensures r.state == c.state && r.attemptsLeft == c.attemptsLeft && r.subscribers == c.subscribers
    ensures r.raw == Some(|c.sockets|) && r.sockets[|c.sockets|] == Socket(SocketConnecting, true)
    ensures r.sockets[..|c.sockets|] == CloseIfOpen(c).sockets
    ensures r.hasHook == c.hasHook && r.timeoutMillis == c.timeoutMillis && r.reconnectAttempts == c.reconnectAttempts
    ensures r == Connect(c.(search := params, pendingHooks := c.pendingHooks - 1))
  {
    Connect(c.(search := params, pendingHooks := c.pendingHooks - 1))
  }

  /**
   The server starts the closing handshake on open socket `k`: the browser moves
   the socket's `readyState` to CLOSING a task before its close event, with no
   event of its own. Nothing else changes, and the bus hears nothing; a `refresh`
   in between already sees the socket closing.
   */
  function OnClosingHandshake(c: Connection, k: nat): (o: Outcome)
    requires k < |c.sockets|
    ensures o.conn == c.(sockets := o.conn.sockets) && o.bus == []
    ensures |o.conn.sockets| == |c.sockets|
    ensures o.conn.sockets[k] == c.sockets[k].(ready := SocketClosing)
    ensures forall j :: 0 <= j < |c.sockets| && j != k ==> o.conn.sockets[j] == c.sockets[j]
  {
    Outcome(SetSocket(c, k, c.sockets[k].(ready := SocketClosing)), [])
  }

  /** The hook's promise rejects: the error is logged and nothing else happens. */
  function OnHookRejected(c: Connection): (r: Connection)
    requires c.pendingHooks > 0
    ensures r == c.(pendingHooks := c.pendingHooks - 1)
    ensures r.state == c.state && r.sockets == c.sockets
  {
    c.(pendingHooks := c.pendingHooks - 1)
  }

  /** Everything that can happen to a connection: caller calls and browser events. */
  datatype Event =
    | DoConnect
    | DoReconnect
    | DoRefresh
    | DoClose
    | Subscribe(listener: Listener)
    | Unsubscribe(listener: Listener)
    | OpenEvent(socket: nat)
    | CloseEvent(socket: nat, code: int)
    | MessageEvent(socket: nat, data: string)
    | ErrorEvent(socket: nat)
    | TimeoutEvent(socket: nat)
    | ClosingHandshake(socket: nat)
    | HookResolved(params: string)
    | HookRejected

  /**
   Whether the browser can deliver an event now: a socket opens only while
   connecting, closes or errors only before it is closed, delivers frames only
   while open; the server starts the closing handshake only on an open socket; a
   timer fires only while pending; a hook settles only while one is in flight.
   Caller calls can always happen.
   */
  predicate Deliverable(c: Connection, e: Event) {
    match e
    case OpenEvent(k) => k < |c.sockets| && c.sockets[k].ready == SocketConnecting
    case CloseEvent(k, _) => k < |c.sockets| && c.sockets[k].ready != SocketClosed
    case MessageEvent(k, _) => k < |c.sockets| && c.sockets[k].ready == SocketOpen
    case ErrorEvent(k) => k < |c.sockets| && c.sockets[k].ready != SocketClosed
    case TimeoutEvent(k) => k < |c.sockets| && c.sockets[k].timerPending
    case ClosingHandshake(k) => k < |c.sockets| && c.sockets[k].ready == SocketOpen
    case HookResolved(_) => c.pendingHooks > 0
    case HookRejected => c.pendingHooks > 0
    case _ => true
  }

  /** One event; one the browser could not deliver changes nothing. */
  function Step(c: Connection, e: Event): (o: Outcome)
    ensures !Deliverable(c, e) ==> o == Outcome(c, [])
  {
    if !Deliverable(c, e) then Outcome(c, [])
    else
      match e
      case DoConnect => Outcome(Connect(c), [])
      case DoReconnect => Outcome(Reconnect(c), [])
      case DoRefresh => Outcome(RefreshReconnectAttempts(c), [])
      case DoClose => Outcome(Close(c), [])
      case Subscribe(l) => Outcome(AddListener(c, l), [])
      case Unsubscribe(l) => Outcome(RemoveListener(c, l), [])
      case OpenEvent(k) => OnOpen(c, k)
      case CloseEvent(k, code) => OnClose(c, k, code)
      case MessageEvent(k, data) => OnMessage(c, k, data)
      case ErrorEvent(k) => OnError(c, k)
      case TimeoutEvent(k) => OnTimeout(c, k)
      case ClosingHandshake(k) => OnClosingHandshake(c, k)
      case HookResolved(params) => Outcome(OnHookResolved(c, params), [])
      case HookRejected => Outcome(OnHookRejected(c), [])
  }

  /** A sequence of events, in order, with everything the bus published. */
  function Run(c: Connection, es: seq<Event>): (o: Outcome)
    decreases |es|
  {
    if |es| == 0 then Outcome(c, [])
    else
      var first := Step(c, es[0]);
      var rest := Run(first.conn, es[1..]);
      Outcome(rest.conn, first.bus + rest.bus)
  }
}

=== FILE: connection_props.dfy ===
/**
 Properties of the connection state machine over single events and over whole
 runs: the counter invariant, bounded automatic retries, the persistence of bus
 subscribers, the one-shot timeout, and the connection a rejected hook strands.
 */
module ConnectionProperties {
  import opened Wrappers
  import opened Connection

  /**
   The counter invariant: with a non-negative configured budget the attempts left
   stay between 0 and the budget; a negative budget (which `??` lets through) is
   never spent, so the counter keeps that value.
   */
  predicate CounterOk(c: Connection) {
    if c.reconnectAttempts >= 0 then 0 <= c.attemptsLeft <= c.reconnectAttempts
    else c.attemptsLeft == c.reconnectAttempts
  }

  /** The current socket is the newest one, and a hook is in flight only if one is configured. */
  predicate Inv(c: Connection) {
    CounterOk(c) &&
    (c.raw.None? <==> |c.sockets| == 0) &&
    (c.raw.Some? ==> c.raw.value == |c.sockets| - 1) &&
    (c.pendingHooks > 0 ==> c.hasHook)
  }

  lemma CreateEstablishesInv(opts: Options)
    ensures Inv(CreateConnection(opts))
  {
  }

  /** Every transition keeps the invariant. */
  lemma StepInv(c: Connection, e: Event)
    requires Inv(c)
    ensures Inv(Step(c, e).conn)
  {
    if e.OpenEvent? || e.CloseEvent? || e.MessageEvent? || e.ErrorEvent? || e.TimeoutEvent? || e.ClosingHandshake? {
      SocketEventInv(c, e);
    } else if e.HookResolved? || e.HookRejected? {
      HookEventInv(c, e);
    } else {
      CallInv(c, e);
    }
  }

  /** The client's own calls (connect, reconnect, refresh, close, subscribe) keep the invariant. */
  lemma CallInv(c: Connection, e: Event)
    requires Inv(c)
    requires e.DoConnect? || e.DoReconnect? || e.DoRefresh? || e.DoClose? || e.Subscribe? || e.Unsubscribe?
    ensures Inv(Step(c, e).conn)
  {
  }

  /** The browser's socket events and timer keep the invariant. */
  lemma SocketEventInv(c: Connection, e: Event)
    requires Inv(c)
    requires e.OpenEvent? || e.CloseEvent? || e.MessageEvent? || e.ErrorEvent? || e.TimeoutEvent? || e.ClosingHandshake?
    ensures Inv(Step(c, e).conn)
  {
  }

  /** The hook's promise settling keeps the invariant. */
  lemma HookEventInv(c: Connection, e: Event)
    requires Inv(c)
    requires e.HookResolved? || e.HookRejected?
    ensures Inv(Step(c, e).conn)
  {
  }

  /** Every run keeps the invariant. */
  lemma {:induction false} RunInv(c: Connection, es: seq<Event>)
    requires Inv(c)
    ensures Inv(Run(c, es).conn)
    decreases |es|
  {
    if |es| > 0 {
      StepInv(c, es[0]);
      RunInv(Step(c, es[0]).conn, es[1..]);
    }
  }

  /** Only `addEventListener` and `removeEventListener` touch the bus's subscribers. */
  predicate TouchesBus(e: Event) {
    e.Subscribe? || e.Unsubscribe?
  }

  /**
   Subscribers persist: no event other than a subscription change alters them,
   however many sockets are created, closed or replaced along the way.
   */
  lemma StepKeepsSubscribers(c: Connection, e: Event)
    ensures !TouchesBus(e) ==> Step(c, e).conn.subscribers == c.subscribers
    ensures e.Subscribe? ==> Step(c, e).conn.subscribers == c.subscribers + {e.listener}
    ensures e.Unsubscribe? ==> Step(c, e).conn.subscribers == c.subscribers - {e.listener}
  {
  }

  lemma {:induction false} RunKeepsSubscribers(c: Connection, es: seq<Event>)
    requires forall i :: 0 <= i < |es| ==> !TouchesBus(es[i])
    ensures Run(c, es).conn.subscribers == c.subscribers
    decreases |es|
  {
    if |es| > 0 {
      StepKeepsSubscribers(c, es[0]);
      RunKeepsSubscribers(Step(c, es[0]).conn, es[1..]);
    }
  }

  /** The event is a close with code 1006 that finds budget left: an automatic reconnect. */
  predicate AutoRetry(c: Connection, e: Event) {
    Deliverable(c, e) && e.CloseEvent? && e.code == AbnormalClosure && c.attemptsLeft > 0
  }

  /** The number of automatic reconnects along a run. */
  function Retries(c: Connection, es: seq<Event>): nat
    decreases |es|
  {
    if |es| == 0 then 0
    else (if AutoRetry(c, es[0]) then 1 else 0) + Retries(Step(c, es[0]).conn, es[1..])
  }

  /**
   Apart from a refresh, the only event that changes the attempts left is an
   automatic reconnect, and it spends exactly one.
   */
  lemma StepSpends(c: Connection, e: Event)
    requires !e.DoRefresh?
    ensures Step(c, e).conn.attemptsLeft == c.attemptsLeft - (if AutoRetry(c, e) then 1 else 0)
    ensures Step(c, e).conn.reconnectAttempts == c.reconnectAttempts
  {
  }

  /** Along a run without refresh, the automatic reconnects are exactly the attempts spent. */
  lemma {:induction false} RunSpends(c: Connection, es: seq<Event>)
    requires forall i :: 0 <= i < |es| ==> !es[i].DoRefresh?
    ensures Retries(c, es) == c.attemptsLeft - Run(c, es).conn.attemptsLeft
    decreases |es|
  {
    if |es| > 0 {
      StepSpends(c, es[0]);
      RunSpends(Step(c, es[0]).conn, es[1..]);
    }
  }

  /**
   Bounded retries: between two refreshes there are at most as many automatic
   reconnects as attempts were left, hence at most the configured budget.
   */
  lemma BoundedRetries(c: Connection, es: seq<Event>)
    requires Inv(c)
    requires forall i :: 0 <= i < |es| ==> !es[i].DoRefresh?
    ensures Retries(c, es) <= (if c.attemptsLeft >= 0 then c.attemptsLeft else 0)
    ensures c.reconnectAttempts >= 0 ==> Retries(c, es) <= c.reconnectAttempts
  {
    RunSpends(c, es);
    RunInv(c, es);
    RunKeepsBudget(c, es);
  }

  /** The configured budget itself never changes. */
  lemma {:induction false} RunKeepsBudget(c: Connection, es: seq<Event>)
    ensures Run(c, es).conn.reconnectAttempts == c.reconnectAttempts
    decreases |es|
  {
    if |es| > 0 {
      RunKeepsBudget(Step(c, es[0]).conn, es[1..]);
    }
  }

  /** The CONNECTING guard: while connecting, asking to reconnect does nothing. */
  lemma ReconnectGuard(c: Connection)
    requires c.state == Connecting
    ensures Step(c, DoReconnect) == Outcome(c, [])
  {
  }

  /**
   The connect timeout fires at most once per socket: after it has fired, a second
   firing cannot be delivered and changes nothing. An open socket's timer is gone.
   */
  lemma TimeoutFiresOnce(c: Connection, k: nat)
    requires k < |c.sockets|
    ensures !Deliverable(Step(c, TimeoutEvent(k)).conn, TimeoutEvent(k))
    ensures Deliverable(c, OpenEvent(k)) ==> !Deliverable(Step(c, OpenEvent(k)).conn, TimeoutEvent(k))
  {
  }

  /**
   A stranded connection: CONNECTING, with no hook in flight and every socket
   closed with its timer gone. The CONNECTING guard turns every reconnect into a
   no-op, and no socket can produce another event.
   */
  predicate Stranded(c: Connection) {
    c.state == Connecting && c.pendingHooks == 0 &&
    forall k :: 0 <= k < |c.sockets| ==> c.sockets[k] == Socket(SocketClosed, false)
  }

  /**
   Nothing but an explicit `connect` rescues a stranded connection: reconnects,
   refreshes, closes, subscriptions and every browser event leave it stranded and
   create no socket.
   */
  lemma StrandedStays(c: Connection, e: Event)
    requires Stranded(c) && !e.DoConnect?
    ensures Stranded(Step(c, e).conn)
    ensures Step(c, e).conn.sockets == c.sockets
  {
    if e.DoRefresh? || e.DoClose? {
      assert Raw(c).Some? ==> Raw(c).value == Socket(SocketClosed, false);
    }
  }

  lemma {:induction false} RunStranded(c: Connection, es: seq<Event>)
    requires Stranded(c)
    requires forall i :: 0 <= i < |es| ==> !es[i].DoConnect?
    ensures Stranded(Run(c, es).conn)
    ensures Run(c, es).conn.sockets == c.sockets
    decreases |es|
  {
    if |es| > 0 {
      StrandedStays(c, es[0]);
      RunStranded(Step(c, es[0]).conn, es[1..]);
    }
  }

  /** A run starts with its first event. */
  lemma RunFrom(c: Connection, e: Event, es: seq<Event>)
    ensures Run(c, [e] + es).conn == Run(Step(c, e).conn, es).conn
  {
    assert ([e] + es)[1..] == es;
  }

  /**
   Every socket but the current one is closed with its timer gone, and the
   current one is open: a healthy connection with one live socket.
   */
  predicate OneLiveSocket(c: Connection) {
    Inv(c) && |c.sockets| > 0 && c.state == Open &&
    c.sockets[|c.sockets| - 1] == Socket(SocketOpen, false) &&
    forall k :: 0 <= k < |c.sockets| - 1 ==> c.sockets[k] == Socket(SocketClosed, false)
  }

  /**
   With a hook configured, an abnormal closure of the only live socket spends an
   attempt and leaves the connection CONNECTING, waiting on the hook, with every
   socket closed.
   */
  lemma AbnormalCloseAwaitsHook(c: Connection)
    requires OneLiveSocket(c) && c.hasHook && c.pendingHooks == 0 && c.attemptsLeft > 0
    ensures var d := Step(c, CloseEvent(|c.sockets| - 1, AbnormalClosure)).conn;
            d.state == Connecting && d.pendingHooks == 1 && d.attemptsLeft == c.attemptsLeft - 1 &&
            d.sockets == c.sockets[|c.sockets| - 1 := Socket(SocketClosed, false)]
  {
  }

  /** If that hook then rejects, the connection is stranded. */
  lemma HookRejectionStrands(c: Connection)
    requires c.state == Connecting && c.pendingHooks == 1
    requires forall k :: 0 <= k < |c.sockets| ==> c.sockets[k] == Socket(SocketClosed, false)
    ensures Stranded(Step(c, HookRejected).conn)
    ensures Step(c, HookRejected).conn.sockets == c.sockets
  {
  }

  /**
   The whole story: a healthy connection with a hook drops abnormally, the hook
   rejects, and from then on no event but an explicit `connect` gets it out of
   CONNECTING or creates a socket.
   */
  lemma RejectedHookStrandsForever(c: Connection, later: seq<Event>)
    requires OneLiveSocket(c) && c.hasHook && c.pendingHooks == 0 && c.attemptsLeft > 0
    requires forall i :: 0 <= i < |later| ==> !later[i].DoConnect?
    ensures var d := Run(c, [CloseEvent(|c.sockets| - 1, AbnormalClosure), HookRejected] + later).conn;
            d.state == Connecting && |d.sockets| == |c.sockets|
  {
    var e0 := CloseEvent(|c.sockets| - 1, AbnormalClosure);
    AbnormalCloseAwaitsHook(c);
    var c1 := Step(c, e0).conn;
    HookRejectionStrands(c1);
    var c2 := Step(c1, HookRejected).conn;
    RunStranded(c2, later);
    RunTwoFirst(c, e0, HookRejected, later);
  }

  /** A run that starts with two given events. */
  lemma RunTwoFirst(c: Connection, e0: Event, e1: Event, es: seq<Event>)
    ensures Run(c, [e0, e1] + es).conn == Run(Step(Step(c, e0).conn, e1).conn, es).conn
  {
    RunFrom(c, e0, [e1] + es);
    RunFrom(Step(c, e0).conn, e1, es);
    assert [e0, e1] + es == [e0] + ([e1] + es);
  }

  /**
   An abnormal closure with three attempts left, and no hook, spends one attempt,
   goes back to CONNECTING and starts a new socket.
   */
  lemma AbnormalCloseReconnects(c: Connection, k: nat)
    requires Inv(c) && !c.hasHook && c.attemptsLeft == 3
    requires k < |c.sockets| && c.sockets[k].ready == SocketOpen
    ensures var o := Step(c, CloseEvent(k, AbnormalClosure));
            o.conn.attemptsLeft == 2 && o.conn.state == Connecting &&
            |o.conn.sockets| == |c.sockets| + 1 && Raw(o.conn) == Some(Socket(SocketConnecting, true)) &&
            o.bus == [BusClose(AbnormalClosure)]
  {
  }

  /** A normal closure settles in CLOSED with no new socket, whatever budget is left. */
  lemma NormalCloseSettles(c: Connection, k: nat)
    requires k < |c.sockets| && c.sockets[k].ready != SocketClosed
    ensures var o := Step(c, CloseEvent(k, NormalClosure));
            o.conn.state == Closed && o.conn.attemptsLeft == c.attemptsLeft &&
            |o.conn.sockets| == |c.sockets|
  {
  }

  /**
   A refresh on a connection whose socket has closed restores the budget and,
   without a hook, starts a new socket at once.
   */
  lemma RefreshRevivesClosed(c: Connection)
    requires Inv(c) && !c.hasHook && c.state == Closed
    requires Raw(c).Some? && Raw(c).value.ready == SocketClosed
    ensures var r := Step(c, DoRefresh).conn;
            r.attemptsLeft == c.reconnectAttempts && r.state == Connecting &&
            |r.sockets| == |c.sockets| + 1 && Raw(r) == Some(Socket(SocketConnecting, true))
  {
  }

  /**
   Between the server's closing handshake and the close event, a refresh already
   sees the socket closing: without a hook it restores the budget and starts a new
   socket, and the old socket's close event is still to come.
   */
  lemma HandshakeThenRefreshReconnects(c: Connection)
    requires OneLiveSocket(c) && !c.hasHook
    ensures var d := Step(Step(c, ClosingHandshake(c.raw.value)).conn, DoRefresh).conn;
            d.state == Connecting && d.attemptsLeft == c.reconnectAttempts &&
            |d.sockets| == |c.sockets| + 1 && d.raw == Some(|c.sockets|) &&
            d.sockets[c.raw.value] == Socket(SocketClosing, false) &&
            Deliverable(d, CloseEvent(c.raw.value, AbnormalClosure))
  {
    var h := Step(c, ClosingHandshake(c.raw.value)).conn;
    assert Raw(h) == Some(Socket(SocketClosing, false));
  }

  /**
   A reconnect while open, without a hook, starts closing the open socket and makes
   a new socket current; the old socket's close event is still to come.
   */
  lemma ReconnectReplacesOpenSocket(c: Connection)
    requires OneLiveSocket(c) && !c.hasHook
    ensures var d := Step(c, DoReconnect).conn;
            d.state == Connecting && |d.sockets| == |c.sockets| + 1 &&
            d.sockets[|c.sockets| - 1] == Socket(SocketClosing, false) &&
            Raw(d) == Some(Socket(SocketConnecting, true))
  {
  }

  /**
   The close handler of a replaced socket still acts on the shared connection. Its
   late close event, with any code but 1006, leaves the connection CLOSED whatever
   its current socket is doing; with 1006 and budget left it spends an attempt and
   reconnects, which starts closing a current socket that is open.
   */
  lemma LateCloseOfReplacedSocket(c: Connection, k: nat, code: int)
    requires Inv(c) && k + 1 < |c.sockets| && c.sockets[k].ready != SocketClosed
    ensures code != AbnormalClosure ==>
              Step(c, CloseEvent(k, code)).conn.state == Closed && Raw(Step(c, CloseEvent(k, code)).conn) == Raw(c)
    ensures code == AbnormalClosure && c.attemptsLeft > 0 && !c.hasHook && Raw(c) == Some(Socket(SocketOpen, false)) ==>
              Step(c, CloseEvent(k, code)).conn.sockets[|c.sockets| - 1] == Socket(SocketClosing, false)
  {
  }

  /**
   A fresh connection reaches the healthy one-live-socket state: without a hook by
   reconnecting and opening, with a hook by reconnecting, the hook resolving and
   the socket opening.
   */
  lemma FreshConnectionOpens(opts: Options, params: string)
    requires opts.reconnectAttempts.None? || opts.reconnectAttempts.value >= 0
    ensures var c := CreateConnection(opts);
            !opts.hasHook ==> OneLiveSocket(Step(Step(c, DoReconnect).conn, OpenEvent(0)).conn)
    ensures var c := CreateConnection(opts);
            opts.hasHook ==> OneLiveSocket(Step(Step(Step(c, DoReconnect).conn, HookResolved(params)).conn, OpenEvent(0)).conn)
  {
    if opts.hasHook {
      FreshConnectionOpensAfterHook(opts, params);
    } else {
      FreshConnectionOpensDirectly(opts);
    }
  }

  /** Without a hook, `reconnect` opens the first socket at once. */
  lemma FreshConnectionOpensDirectly(opts: Options)
    requires !opts.hasHook
    requires opts.reconnectAttempts.None? || opts.reconnectAttempts.value >= 0
    ensures OneLiveSocket(Step(Step(CreateConnection(opts), DoReconnect).conn, OpenEvent(0)).conn)
  {
    var c1 := Step(CreateConnection(opts), DoReconnect).conn;
    assert c1.sockets == [Socket(SocketConnecting, true)] && c1.raw == Some(0);
  }

  /** With a hook, the first socket is opened once the hook resolves. */
  lemma FreshConnectionOpensAfterHook(opts: Options, params: string)
    requires opts.hasHook
    requires opts.reconnectAttempts.None? || opts.reconnectAttempts.value >= 0
    ensures OneLiveSocket(Step(Step(Step(CreateConnection(opts), DoReconnect).conn, HookResolved(params)).conn, OpenEvent(0)).conn)
  {
    var c1 := Step(CreateConnection(opts), DoReconnect).conn;
    assert c1.pendingHooks == 1 && c1.sockets == [];
    var c2 := Step(c1, HookResolved(params)).conn;
    assert c2.sockets == [Socket(SocketConnecting, true)] && c2.raw == Some(0) && c2.pendingHooks == 0;
  }
}

=== FILE: heap.dfy ===
/** Optional values, used where the source reads `undefined`. */
module Wrappers {

  datatype Option<+T> = None | Some(value: T)

}

/**
 The duplicate-tolerant binary heap of prices each side of the order book keeps
 (`BinaryHeap<number>` built with `descend` for bids and `ascend` for asks).

 Only the heap's behaviour as a priority queue is observable: a push adds one
 copy of a price, whether or not it is already there, and a pop removes and
 returns one copy of the best price. The heap is therefore modelled by the
 sorted sequence of the prices it holds, best first; the array layout of the
 binary heap is not modelled.
 */
module PriceHeap {

  /** The comparator the heap was built with. */
  datatype Order = Descend | Ascend

  /** Under order `o`, `x` is popped no later than `y`. */
  predicate Before(o: Order, x: int, y: int) {
    match o
    case Descend => x >= y
    case Ascend => x <= y
  }

  type Heap = seq<int>

  /** The heap holds its prices best first. */
  predicate Sorted(o: Order, h: Heap) {
    forall i, j :: 0 <= i < j < |h| ==> Before(o, h[i], h[j])
  }

  /**
   `heap.push(price)`: one more copy of `price`, placed after every price that
   comes strictly before it.
   */
  function Push(o: Order, h: Heap, price: int): (r: Heap)
    requires Sorted(o, h)
    ensures Sorted(o, r)
    ensures |r| == |h| + 1
    ensures forall q :: q in r <==> q in h || q == price
  {
    if |h| == 0 || Before(o, price, h[0]) then [price] + h
    else
      var t := Push(o, h[1..], price);
      assert h == [h[0]] + h[1..];
      assert forall k :: 0 <= k < |t| ==> Before(o, h[0], t[k]) by {
        forall k | 0 <= k < |t|
          ensures Before(o, h[0], t[k])
        {
          assert t[k] in t;
          if t[k] != price {
            var j :| 0 <= j < |h[1..]| && h[1..][j] == t[k];
            assert h[j + 1] == t[k];
          }
        }
      }
      [h[0]] + t
  }

  /** A push adds exactly one copy of the price to the bag and nothing else. */
  lemma {:induction false} PushBag(o: Order, h: Heap, price: int)
    requires Sorted(o, h)
    ensures multiset(Push(o, h, price)) == multiset(h) + multiset{price}
  {
    if |h| > 0 && !Before(o, price, h[0]) {
      PushBag(o, h[1..], price);
      assert h == [h[0]] + h[1..];
    }
  }

  /** Result of `heap.pop() || 0`: the popped price and the heap left behind. */
  datatype Popped = Popped(price: int, rest: Heap)

  /**
   `heap.pop() || 0`. A non-empty heap gives up one copy of a price at least as good
   as every price it holds; an empty heap pops `undefined`, which the source turns
   into price 0, and stays empty.
   */
  function Pop(o: Order, h: Heap): (r: Popped)
    requires Sorted(o, h)
    ensures Sorted(o, r.rest)
    ensures |h| == 0 ==> r == Popped(0, h)
    ensures |h| > 0 ==> h == [r.price] + r.rest
    ensures |h| > 0 ==> forall q :: q in h ==> Before(o, r.price, q)
  {
    if |h| == 0 then Popped(0, h) else Popped(h[0], h[1..])
  }

  /** The prices popped by repeated pops, in pop order, and the heap left behind. */
  datatype Taken = Taken(prices: seq<int>, rest: Heap)

  /**
   Pops `n` times. Once the heap is empty a further pop changes nothing and yields
   no price, so exactly min(n, |h|) prices are taken: the best ones, best first,
   and each at least as good as every price left behind.
   */
  function PopN(o: Order, h: Heap, n: nat): (t: Taken)
    requires Sorted(o, h)
    ensures |t.prices| == if n <= |h| then n else |h|
    ensures h == t.prices + t.rest
    ensures Sorted(o, t.prices) && Sorted(o, t.rest)
    ensures forall i, q :: 0 <= i < |t.prices| && q in t.rest ==> Before(o, t.prices[i], q)
    ensures Takes(o, h, n, t)
    decreases n
  {
    if n == 0 || |h| == 0 then Taken([], h)
    else
      var p := Pop(o, h);
      var t := PopN(o, p.rest, n - 1);
      TakeStep(o, h, n, t);
      Taken([p.price] + t.prices, t.rest)
  }

  /** `t` holds the first `n` prices of `h` (all of them if fewer), and what is left. */
  predicate Takes(o: Order, h: Heap, n: nat, t: Taken) {
    |t.prices| == (if n <= |h| then n else |h|) && h == t.prices + t.rest &&
    Sorted(o, t.prices) && Sorted(o, t.rest) &&
    forall i, q :: 0 <= i < |t.prices| && q in t.rest ==> Before(o, t.prices[i], q)
  }

  /** The first pop in front of repeated pops of what is left takes from the whole heap. */
  lemma TakeStep(o: Order, h: Heap, n: nat, t: Taken)
    requires Sorted(o, h) && n > 0 && |h| > 0
    requires Takes(o, Pop(o, h).rest, n - 1, t)
    ensures Takes(o, h, n, Taken([Pop(o, h).price] + t.prices, t.rest))
  {
    var p := Pop(o, h);
    var ps := [p.price] + t.prices;
    assert h == ps + t.rest;
    forall i, j | 0 <= i < j < |ps|
      ensures Before(o, ps[i], ps[j])
    {
      assert ps[j] == h[j];
      assert ps[i] == h[i];
    }
    forall i, q | 0 <= i < |ps| && q in t.rest
      ensures Before(o, ps[i], q)
    {
      if i == 0 {
        assert q in h;
      } else {
        assert ps[i] == t.prices[i - 1];
      }
    }
  }

}

=== FILE: listing.dfy ===
/**
 The read path of the web client's order book: pop a fixed number of prices off
 each side's heap and look each one up in that side's map. The read is
 destructive: every popped entry is gone from the heap, and stale or duplicate
 entries are reported as they come rather than skipped.
 */
module Listing {
  import opened PriceHeap
  import opened OrderBook

  /** One displayed row: a price and the quantity reported for it. */
  datatype Row = Row(price: int, qty: int)

  /** The rows popped from a heap, in pop order, and what is left of the heap. */
  datatype Drained = Drained(rows: seq<Row>, rest: Heap)

  /** The top-of-book view a read returns, one list of rows per side. */
  datatype View = View(asks: seq<Row>, bids: seq<Row>)

  /** A read's view together with the book it leaves behind. */
  datatype Snapshot = Snapshot(view: View, book: Book)

  /** `levels.get(price) || 0`: the quantity, or 0 for a price the map does not hold. */
  function Quantity(levels: map<int, int>, price: int): int {
    if price in levels then levels[price] else 0
  }

  /** Row `i` of a read: the `i`-th popped price, or 0 once the pops ran dry. */
  function RowAt(levels: map<int, int>, popped: seq<int>, i: int): Row {
    var price := if 0 <= i < |popped| then popped[i] else 0;
    Row(price, Quantity(levels, price))
  }

  /** `d` holds the first `n` rows a read of `h` shows, best first, and what the read leaves of `h`. */
  predicate ReadsForward(levels: map<int, int>, h: Heap, n: nat, d: Drained) {
    |d.rows| == n && d.rest == h[Min(n, |h|)..] &&
    forall i :: 0 <= i < n ==> d.rows[i] == RowAt(levels, h, i)
  }

  /** Like `ReadsForward`, with the rows stored back to front: the best row is last. */
  predicate ReadsBackward(levels: map<int, int>, h: Heap, n: nat, d: Drained) {
    |d.rows| == n && d.rest == h[Min(n, |h|)..] &&
    forall i :: 0 <= i < n ==> d.rows[i] == RowAt(levels, h, n - 1 - i)
  }

  /**
   Pops `n` times from a heap, looking each price up in `levels`, as the bid loop
   of `list` does for `n` = 5. The first min(n, |h|) rows carry the best prices of
   the heap, best first, duplicates included; the remaining rows come from an
   empty heap and carry price 0. A row's quantity is the map's, and 0 for a price
   the map does not hold: stale entries are reported, not skipped.
   */
  function Drain(o: Order, levels: map<int, int>, h: Heap, n: nat): (d: Drained)
    requires Sorted(o, h)
    ensures Sorted(o, d.rest)
    ensures ReadsForward(levels, h, n, d)
    decreases n
  {
    if n == 0 then Drained([], h)
    else
      var p := Pop(o, h);
      var d := Drain(o, levels, p.rest, n - 1);
      ForwardStep(o, levels, h, n, d);
      Drained([Row(p.price, Quantity(levels, p.price))] + d.rows, d.rest)
  }

  /**
   The ask loop of `list`, for `i` from `n - 1` down to 0: the first pop is stored
   last, and the pops that follow fill the slots before it the same way. So row
   `i` holds pop number `n - 1 - i`, and the best ask ends up last.
   */
  function DrainAsks(levels: map<int, int>, h: Heap, n: nat): (d: Drained)
    requires Sorted(AskOrder, h)
    ensures Sorted(AskOrder, d.rest)
    ensures ReadsBackward(levels, h, n, d)
    decreases n
  {
    if n == 0 then Drained([], h)
    else
      var p := Pop(AskOrder, h);
      var d := DrainAsks(levels, p.rest, n - 1);
      BackwardStep(AskOrder, levels, h, n, d);
      Drained(d.rows + [Row(p.price, Quantity(levels, p.price))], d.rest)
  }

  /**
   The rows a drain takes from real pops carry exactly the prices that repeated
   pops take, in the same order, and the drain leaves the same heap behind.
   */
  lemma DrainTakesPopN(o: Order, levels: map<int, int>, h: Heap, n: nat)
    requires Sorted(o, h)
    ensures Prices(Drain(o, levels, h, n).rows[..Min(n, |h|)]) == PopN(o, h, n).prices
    ensures Drain(o, levels, h, n).rest == PopN(o, h, n).rest
  {
    var d, t, k := Drain(o, levels, h, n), PopN(o, h, n), Min(n, |h|);
    assert t.prices == h[..k] && t.rest == h[k..];
    forall i | 0 <= i < k
      ensures Prices(d.rows[..k])[i] == h[i]
    {
      assert d.rows[i] == RowAt(levels, h, i);
    }
  }

  /** After one pop, row `i + 1` of the read is row `i` of a read of what is left. */
  lemma ShiftRowAt(o: Order, levels: map<int, int>, h: Heap, n: nat)
    requires Sorted(o, h) && n > 0
    ensures forall i :: 0 <= i < n - 1 ==> RowAt(levels, h, i + 1) == RowAt(levels, Pop(o, h).rest, i)
  {
  }

  /** The first pop in front of a read of what is left is a read of the whole heap. */
  lemma ForwardStep(o: Order, levels: map<int, int>, h: Heap, n: nat, d: Drained)
    requires Sorted(o, h) && n > 0
    requires ReadsForward(levels, Pop(o, h).rest, n - 1, d)
    ensures ReadsForward(levels, h, n, Drained([Row(Pop(o, h).price, Quantity(levels, Pop(o, h).price))] + d.rows, d.rest))
  {
    var p := Pop(o, h);
    var all := [Row(p.price, Quantity(levels, p.price))] + d.rows;
    ShiftRowAt(o, levels, h, n);
    forall i | 0 <= i < n
      ensures all[i] == RowAt(levels, h, i)
    {
      if i > 0 {
        assert all[i] == d.rows[i - 1];
      }
    }
  }

  /** The first pop behind a backwards read of what is left is a backwards read of the whole heap. */
  lemma BackwardStep(o: Order, levels: map<int, int>, h: Heap, n: nat, d: Drained)
    requires Sorted(o, h) && n > 0
    requires ReadsBackward(levels, Pop(o, h).rest, n - 1, d)
    ensures ReadsBackward(levels, h, n, Drained(d.rows + [Row(Pop(o, h).price, Quantity(levels, Pop(o, h).price))], d.rest))
  {
    var p := Pop(o, h);
    var all := d.rows + [Row(p.price, Quantity(levels, p.price))];
    ShiftRowAt(o, levels, h, n);
    forall i | 0 <= i < n
      ensures all[i] == RowAt(levels, h, n - 1 - i)
    {
      if i < n - 1 {
        assert all[i] == d.rows[i];
        assert RowAt(levels, h, (n - 2 - i) + 1) == RowAt(levels, p.rest, n - 2 - i);
      }
    }
  }

  /**
   The web client's `list`: pops five asks off the min-heap into indices 4 down to
   0, and five bids off the max-heap into indices 0 to 4. The maps are left as they
   were; each heap loses its min(5, size) best entries.
   */
  function List(b: Book): (s: Snapshot)
    requires ValidBook(b)
    ensures ValidBook(s.book)
    ensures ListedAs(b, s)
  {
    var a := DrainAsks(b.asks.levels, b.asks.heap, Rows);
    var d := Drain(BidOrder, b.bids.levels, b.bids.heap, Rows);
    DrainsList(b, a, d);
    Snapshot(View(a.rows, d.rows), Book(Side(b.bids.levels, d.rest), Side(b.asks.levels, a.rest)))
  }

  /** A backwards drain of the asks and a drain of the bids, five rows each, make up `list`'s snapshot. */
  lemma DrainsList(b: Book, a: Drained, d: Drained)
    requires Sorted(AskOrder, a.rest) && Sorted(BidOrder, d.rest)
    requires ReadsBackward(b.asks.levels, b.asks.heap, Rows, a)
    requires ReadsForward(b.bids.levels, b.bids.heap, Rows, d)
    ensures ValidBook(Book(Side(b.bids.levels, d.rest), Side(b.asks.levels, a.rest)))
    ensures ListedAs(b, Snapshot(View(a.rows, d.rows), Book(Side(b.bids.levels, d.rest), Side(b.asks.levels, a.rest))))
  {
  }

  /** `s` shows and leaves what `list` does on `b`: the contract of `List`, in one piece. */
  predicate ListedAs(b: Book, s: Snapshot) {
    |s.view.asks| == Rows && |s.view.bids| == Rows &&
    s.book.asks.levels == b.asks.levels && s.book.bids.levels == b.bids.levels &&
    s.book.asks.heap == b.asks.heap[Min(Rows, |b.asks.heap|)..] &&
    s.book.bids.heap == b.bids.heap[Min(Rows, |b.bids.heap|)..] &&
    (forall i :: 0 <= i < Rows ==> s.view.bids[i] == RowAt(b.bids.levels, b.bids.heap, i)) &&
    (forall i :: 0 <= i < Rows ==> s.view.asks[i] == RowAt(b.asks.levels, b.asks.heap, Rows - 1 - i))
  }

  /** The contract of `List` leaves it no freedom: one snapshot meets it. */
  lemma ListedOnce(b: Book, s: Snapshot, t: Snapshot)
    requires ListedAs(b, s) && ListedAs(b, t)
    ensures s == t
  {
    assert s.view.bids == t.view.bids;
    assert s.view.asks == t.view.asks;
  }

  /** The prices of some rows, in order. */
  function Prices(rows: seq<Row>): (ps: seq<int>)
    ensures |ps| == |rows|
    ensures forall i :: 0 <= i < |rows| ==> ps[i] == rows[i].price
  {
    seq(|rows|, i requires 0 <= i < |rows| => rows[i].price)
  }

  /** A sequence read back to front holds the same prices, each as often. */
  lemma {:induction false} ReversedBag(xs: seq<int>, ys: seq<int>)
    requires |ys| == |xs|
    requires forall i :: 0 <= i < |xs| ==> ys[i] == xs[|xs| - 1 - i]
    ensures multiset(ys) == multiset(xs)
    decreases |xs|
  {
    if |xs| > 0 {
      var n := |xs|;
      ReversedBag(xs[1..], ys[..n - 1]);
      assert xs == [xs[0]] + xs[1..];
      assert ys == ys[..n - 1] + [xs[0]];
    }
  }

  /** Rows whose first `k` prices are the first `k` entries of `h` account for those entries. */
  lemma PrefixBag(rows: seq<Row>, h: seq<int>, k: nat)
    requires k <= |rows| && k <= |h|
    requires forall i :: 0 <= i < k ==> rows[i].price == h[i]
    ensures multiset(Prices(rows[..k])) + multiset(h[k..]) == multiset(h)
  {
    assert Prices(rows[..k]) == h[..k];
    assert h == h[..k] + h[k..];
  }

  /** Rows whose last `k` prices are the first `k` entries of `h`, back to front, account for those entries. */
  lemma SuffixBag(rows: seq<Row>, h: seq<int>, k: nat)
    requires k <= |rows| && k <= |h|
    requires forall i :: 0 <= i < k ==> rows[|rows| - 1 - i].price == h[i]
    ensures multiset(Prices(rows[|rows| - k..])) + multiset(h[k..]) == multiset(h)
  {
    var tail := Prices(rows[|rows| - k..]);
    forall i | 0 <= i < k
      ensures tail[i] == h[..k][k - 1 - i]
    {
      assert tail[i] == rows[|rows| - 1 - (k - 1 - i)].price;
    }
    ReversedBag(h[..k], tail);
    assert h == h[..k] + h[k..];
  }

  /** The bid half of `ListAccountsForHeap`. */
  lemma ListAccountsForBids(b: Book)
    requires ValidBook(b)
    ensures multiset(Prices(List(b).view.bids[..Min(Rows, |b.bids.heap|)])) + multiset(List(b).book.bids.heap)
              == multiset(b.bids.heap)
  {
    BidsAccount(b, List(b));
  }

  /** The bid half of `ListAccountsForHeap`, for any snapshot that meets `List`'s contract. */
  lemma BidsAccount(b: Book, s: Snapshot)
    requires ListedAs(b, s)
    ensures multiset(Prices(s.view.bids[..Min(Rows, |b.bids.heap|)])) + multiset(s.book.bids.heap)
              == multiset(b.bids.heap)
  {
    var h, k := b.bids.heap, Min(Rows, |b.bids.heap|);
    forall i | 0 <= i < k
      ensures s.view.bids[i].price == h[i]
    {
      assert s.view.bids[i] == RowAt(b.bids.levels, h, i);
    }
    PrefixBag(s.view.bids, h, k);
  }

  /**
   Rows stored backwards from the first min(5, size) entries of `h` account for
   those entries: their last rows, together with what is left of `h`, hold
   exactly the entries of `h`.
   */
  lemma BackwardsAccount(levels: map<int, int>, h: Heap, rows: seq<Row>, rest: Heap)
    requires |rows| == Rows && rest == h[Min(Rows, |h|)..]
    requires forall i :: 0 <= i < Rows ==> rows[i] == RowAt(levels, h, Rows - 1 - i)
    ensures multiset(Prices(rows[Rows - Min(Rows, |h|)..])) + multiset(rest) == multiset(h)
  {
    var m := Min(Rows, |h|);
    forall i | 0 <= i < m
      ensures rows[|rows| - 1 - i].price == h[i]
    {
      assert rows[Rows - 1 - i] == RowAt(levels, h, i);
    }
    SuffixBag(rows, h, m);
  }

  /** The ask half of `ListAccountsForHeap`: the rows from real pops are the last ones. */
  lemma ListAccountsForAsks(b: Book)
    requires ValidBook(b)
    ensures multiset(Prices(List(b).view.asks[Rows - Min(Rows, |b.asks.heap|)..])) + multiset(List(b).book.asks.heap)
              == multiset(b.asks.heap)
  {
    AsksAccount(b, List(b));
  }

  /** The ask half of `ListAccountsForHeap`, for any snapshot that meets `List`'s contract. */
  lemma AsksAccount(b: Book, s: Snapshot)
    requires ListedAs(b, s)
    ensures multiset(Prices(s.view.asks[Rows - Min(Rows, |b.asks.heap|)..])) + multiset(s.book.asks.heap)
              == multiset(b.asks.heap)
  {
    BackwardsAccount(b.asks.levels, b.asks.heap, s.view.asks, s.book.asks.heap);
  }

  /**
   A read loses no entry: the prices of the rows that came from real pops, together
   with what is left of the heap, are exactly the entries the heap held, duplicates
   and stale entries included. On the ask side those rows are the last ones.
   */
  lemma ListAccountsForHeap(b: Book)
    requires ValidBook(b)
    ensures multiset(Prices(List(b).view.bids[..Min(Rows, |b.bids.heap|)])) + multiset(List(b).book.bids.heap)
              == multiset(b.bids.heap)
    ensures multiset(Prices(List(b).view.asks[Rows - Min(Rows, |b.asks.heap|)..])) + multiset(List(b).book.asks.heap)
              == multiset(b.asks.heap)
  {
    ListAccountsForBids(b);
    ListAccountsForAsks(b);
  }

  /** The first entry of a non-empty sorted heap is at least as good as every entry. */
  lemma HeadIsBest(o: Order, h: Heap)
    requires Sorted(o, h) && |h| > 0
    ensures forall q :: q in h ==> Before(o, h[0], q)
  {
    forall q | q in h
      ensures Before(o, h[0], q)
    {
      var k :| 0 <= k < |h| && h[k] == q;
      if k > 0 {
        assert Before(o, h[0], h[k]);
      }
    }
  }

  /**
   Bid order of `list`: the bids that came from real pops run from highest to
   lowest, and the first bid is at least every bid the heap held.
   */
  lemma ListBidsOrdered(b: Book)
    requires ValidBook(b)
    ensures forall i, j :: 0 <= i < j < Min(Rows, |b.bids.heap|) ==>
              List(b).view.bids[i].price >= List(b).view.bids[j].price
    ensures |b.bids.heap| > 0 ==> forall q :: q in b.bids.heap ==> List(b).view.bids[0].price >= q
  {
    if |b.bids.heap| > 0 {
      HeadIsBest(BidOrder, b.bids.heap);
    }
  }

  /**
   Ask order of `list`: the asks that came from real pops sit at the end of the
   list and run from highest to lowest, so the last ask is at most every ask the
   heap held.
   */
  lemma ListAsksOrdered(b: Book)
    requires ValidBook(b)
    ensures forall i, j :: Rows - Min(Rows, |b.asks.heap|) <= i < j < Rows ==>
              List(b).view.asks[i].price >= List(b).view.asks[j].price
    ensures |b.asks.heap| > 0 ==> forall q :: q in b.asks.heap ==> List(b).view.asks[Rows - 1].price <= q
  {
    var s := List(b);
    BackwardsOrdered(b.asks.levels, b.asks.heap, s.view.asks);
  }

  /** Rows stored backwards from an ascending heap descend, and the last is the lowest entry. */
  lemma BackwardsOrdered(levels: map<int, int>, h: Heap, rows: seq<Row>)
    requires Sorted(AskOrder, h)
    requires |rows| == Rows && forall i :: 0 <= i < Rows ==> rows[i] == RowAt(levels, h, Rows - 1 - i)
    ensures forall i, j :: Rows - Min(Rows, |h|) <= i < j < Rows ==> rows[i].price >= rows[j].price
    ensures |h| > 0 ==> forall q :: q in h ==> rows[Rows - 1].price <= q
  {
    forall i, j | Rows - Min(Rows, |h|) <= i < j < Rows
      ensures rows[i].price >= rows[j].price
    {
      assert rows[i] == RowAt(levels, h, Rows - 1 - i);
      assert rows[j] == RowAt(levels, h, Rows - 1 - j);
      assert Before(AskOrder, h[Rows - 1 - j], h[Rows - 1 - i]);
    }
    if |h| > 0 {
      HeadIsBest(AskOrder, h);
      assert rows[Rows - 1] == RowAt(levels, h, 0);
    }
  }

  /**
   The book a read leaves behind: the maps as they were, each heap without its
   min(5, size) best entries.
   */
  function AfterRead(b: Book): Book {
    Book(Side(b.bids.levels, b.bids.heap[Min(Rows, |b.bids.heap|)..]),
         Side(b.asks.levels, b.asks.heap[Min(Rows, |b.asks.heap|)..]))
  }

  /** A read leaves exactly the book `AfterRead` describes. */
  lemma ListLeaves(b: Book)
    requires ValidBook(b)
    ensures List(b).book == AfterRead(b)
  {
  }

  /**
   The book left after `m` reads in a row, with no update in between (each read
   leaves `AfterRead` of the book before it, by `ListLeaves`).
   */
  function Relist(b: Book, m: nat): Book
    decreases m
  {
    if m == 0 then b else AfterRead(Relist(b, m - 1))
  }

  /** How many pops `m` reads make on each side: five per read. */
  function PopsAfter(m: nat): (k: nat)
    ensures k == m * Rows
  {
    if m == 0 then 0 else PopsAfter(m - 1) + Rows
  }

  /**
   Reads drain the heaps: after `m` reads with no update in between, each heap has
   lost its min(5 * m, size) best entries and the maps are unchanged.
   */
  lemma {:induction false} RelistDrains(b: Book, m: nat)
    ensures Relist(b, m).bids.levels == b.bids.levels && Relist(b, m).asks.levels == b.asks.levels
    ensures Relist(b, m).bids.heap == b.bids.heap[Min(PopsAfter(m), |b.bids.heap|)..]
    ensures Relist(b, m).asks.heap == b.asks.heap[Min(PopsAfter(m), |b.asks.heap|)..]
    decreases m
  {
    if m > 0 {
      RelistDrains(b, m - 1);
      var prev, x := Relist(b, m - 1), PopsAfter(m - 1);
      assert Relist(b, m) == AfterRead(prev) && PopsAfter(m) == x + Rows;
      DropTwice(b.bids.heap, x, Rows);
      DropTwice(b.asks.heap, x, Rows);
      assert prev.bids.heap == b.bids.heap[Min(x, |b.bids.heap|)..];
      assert prev.asks.heap == b.asks.heap[Min(x, |b.asks.heap|)..];
    }
  }

  /** Dropping `x` entries and then `y` more drops `x + y`, as far as there are any. */
  lemma DropTwice(h: Heap, x: nat, y: nat)
    ensures h[Min(x, |h|)..][Min(y, |h[Min(x, |h|)..]|)..] == h[Min(x + y, |h|)..]
  {
    var a := Min(x, |h|);
    var t := h[a..];
    assert |t| == |h| - a;
    assert a + Min(y, |t|) == Min(x + y, |h|);
    assert t[Min(y, |t|)..] == h[a + Min(y, |t|)..];
  }

  /**
   Once the reads have drained a side's heap, every further read of that side
   returns nothing but placeholder rows at price 0, whatever the map still holds.
   */
  lemma {:induction false} DrainedReadsArePlaceholders(b: Book, m: nat)
    requires ValidBook(b)
    requires m * Rows >= |b.bids.heap| && m * Rows >= |b.asks.heap|
    ensures ValidBook(Relist(b, m))
    ensures forall i :: 0 <= i < Rows ==> List(Relist(b, m)).view.bids[i] == Row(0, Quantity(b.bids.levels, 0))
    ensures forall i :: 0 <= i < Rows ==> List(Relist(b, m)).view.asks[i] == Row(0, Quantity(b.asks.levels, 0))
  {
    RelistDrains(b, m);
    var r := Relist(b, m);
    assert |r.bids.heap| == 0 && |r.asks.heap| == 0;
    assert ValidBook(r);
  }

  /**
   One bid and one ask, each at a non-zero price with a non-zero quantity, on an
   empty book (say a bid at 10.5 for 2.0 and an ask at 10.6 for 1.0, normalised by
   10): the read shows the bid first among the bids and the ask last among the
   asks, and every other row is the placeholder at price 0, quantity 0.
   */
  lemma SingleLevelsRead(bid: Delta, ask: Delta)
    requires bid.price != 0 && bid.qty != 0 && ask.price != 0 && ask.qty != 0
    ensures var s := List(Apply(EmptyBook, Update([bid], [ask])));
            s.view.bids[0] == Row(bid.price, bid.qty) && s.view.asks[Rows - 1] == Row(ask.price, ask.qty) &&
            (forall i :: 1 <= i < Rows ==> s.view.bids[i] == Row(0, 0)) &&
            (forall i :: 0 <= i < Rows - 1 ==> s.view.asks[i] == Row(0, 0))
  {
    var b := Apply(EmptyBook, Update([bid], [ask]));
    SingleDelta(BidOrder, bid);
    SingleDelta(AskOrder, ask);
    SingleLevelsShown(bid, ask, b, List(b));
  }

  /** One non-removing delta on an empty side makes a one-level side. */
  lemma SingleDelta(o: Order, d: Delta)
    requires d.qty != 0
    ensures ApplySide(o, EmptySide, [d]) == Side(map[d.price := d.qty], [d.price])
  {
    assert [d][..0] == [];
    assert ApplySide(o, EmptySide, []) == EmptySide;
  }

  /** What any snapshot meeting `List`'s contract shows for one bid level and one ask level. */
  lemma SingleLevelsShown(bid: Delta, ask: Delta, b: Book, s: Snapshot)
    requires bid.price != 0 && ask.price != 0
    requires b.bids == Side(map[bid.price := bid.qty], [bid.price])
    requires b.asks == Side(map[ask.price := ask.qty], [ask.price])
    requires ListedAs(b, s)
    ensures s.view.bids[0] == Row(bid.price, bid.qty) && s.view.asks[Rows - 1] == Row(ask.price, ask.qty)
    ensures forall i :: 1 <= i < Rows ==> s.view.bids[i] == Row(0, 0)
    ensures forall i :: 0 <= i < Rows - 1 ==> s.view.asks[i] == Row(0, 0)
  {
    assert s.view.bids[0] == RowAt(b.bids.levels, b.bids.heap, 0);
    assert s.view.asks[Rows - 1] == RowAt(b.asks.levels, b.asks.heap, 0);
  }

  /**
   A level set and then removed in the same batch stays on the heap, and the next
   read reports it with quantity 0 rather than skipping it.
   */
  lemma RemovedLevelIsListed()
    ensures List(Apply(EmptyBook, Update([], [Delta(101, 10), Delta(101, 0)])))
              .view.asks[Rows - 1] == Row(101, 0)
  {
    var u := Update([], [Delta(101, 10), Delta(101, 0)]);
    assert u.a[..1] == [Delta(101, 10)] && u.a[..1][..0] == [];
    assert ApplySide(AskOrder, EmptySide, []) == EmptySide;
    var first := ApplySide(AskOrder, EmptySide, u.a[..1]);
    assert first == ApplyDelta(AskOrder, EmptySide, Delta(101, 10));
    var b := Apply(EmptyBook, u);
    assert b.asks == ApplyDelta(AskOrder, first, Delta(101, 0));
    assert b.asks.heap == [101] && 101 !in b.asks.levels;
  }
}

=== FILE: orderbook.dfy ===
/**
 The order-book engine shared by the web client and the terminal client: each
 side keeps an authoritative map from price level to quantity and a heap of
 candidate prices, and an update batch is applied to both, delta by delta.

 Prices and quantities are the already-normalised integers (decimal string times
 the scale factor 10).
 */
module OrderBook {
  import opened Wrappers
  import opened PriceHeap

  /** Number of rows per side a read returns. */
  const Rows: nat := 5

  /** One `[price, quantity]` pair of an update, already normalised. */
  datatype Delta = Delta(price: int, qty: int)

  /** A validated update message: bid deltas `b` and ask deltas `a`, in arrival order. */
  datatype Update = Update(b: seq<Delta>, a: seq<Delta>)

  /** One side of the book: the price-to-quantity map and the heap of candidate prices. */
  datatype Side = Side(levels: map<int, int>, heap: Heap)

  /** Bids are kept in a max-heap (`descend`), asks in a min-heap (`ascend`). */
  datatype Book = Book(bids: Side, asks: Side)

  const BidOrder: Order := Descend
  const AskOrder: Order := Ascend

  /** The heap invariant of a side kept under order `o`. */
  predicate WellFormed(o: Order, s: Side) {
    Sorted(o, s.heap)
  }

  /** Both heaps keep their invariant. */
  predicate ValidBook(b: Book) {
    WellFormed(BidOrder, b.bids) && WellFormed(AskOrder, b.asks)
  }

  const EmptySide: Side := Side(map[], [])
  const EmptyBook: Book := Book(EmptySide, EmptySide)

  /** A quantity of exactly zero removes the level. */
  predicate ShouldRemove(qty: int) {
    qty == 0
  }

  /** No level of the side holds quantity zero. */
  predicate NoZero(s: Side) {
    forall p :: p in s.levels ==> s.levels[p] != 0
  }

  predicate BookNoZero(b: Book) {
    NoZero(b.bids) && NoZero(b.asks)
  }

  /** The map's entry for a price, if any. */
  function Lookup(levels: map<int, int>, p: int): Option<int> {
    if p in levels then Some(levels[p]) else None
  }

  /**
   Applies one delta to a side. A zero quantity deletes the level (a no-op when the
   level is absent) and leaves the heap alone; any other quantity sets the level and
   pushes one more copy of its price onto the heap, even when it is already there.
   */
  function ApplyDelta(o: Order, s: Side, d: Delta): (r: Side)
    requires WellFormed(o, s)
    ensures WellFormed(o, r)
    ensures ShouldRemove(d.qty) ==> r.levels.Keys == s.levels.Keys - {d.price} && r.heap == s.heap
    ensures ShouldRemove(d.qty) && d.price !in s.levels ==> r == s
    ensures !ShouldRemove(d.qty) ==> Lookup(r.levels, d.price) == Some(d.qty)
    ensures !ShouldRemove(d.qty) ==> |r.heap| == |s.heap| + 1 && d.price in r.heap
    ensures forall p :: p != d.price ==> Lookup(r.levels, p) == Lookup(s.levels, p)
    ensures NoZero(s) ==> NoZero(r)
  {
    if ShouldRemove(d.qty) then
      s.(levels := s.levels - {d.price})
    else
      Side(s.levels[d.price := d.qty], Push(o, s.heap, d.price))
  }

  /** Applies a side's deltas in index order, as a reference for the batch loop. */
  function ApplySide(o: Order, s: Side, ds: seq<Delta>): (r: Side)
    requires WellFormed(o, s)
    ensures WellFormed(o, r)
    ensures NoZero(s) ==> NoZero(r)
    decreases |ds|
  {
    if |ds| == 0 then s
    else ApplyDelta(o, ApplySide(o, s, ds[..|ds| - 1]), ds[|ds| - 1])
  }

  /** The prices of the non-removing deltas: what a batch pushes onto the heap. */
  function Pushed(ds: seq<Delta>): multiset<int>
    decreases |ds|
  {
    if |ds| == 0 then multiset{}
    else
      var last := ds[|ds| - 1];
      Pushed(ds[..|ds| - 1]) + (if ShouldRemove(last.qty) then multiset{} else multiset{last.price})
  }

  /** A batch grows the heap by exactly one copy of each non-removing delta's price. */
  lemma {:induction false} ApplySidePushes(o: Order, s: Side, ds: seq<Delta>)
    requires WellFormed(o, s)
    ensures multiset(ApplySide(o, s, ds).heap) == multiset(s.heap) + Pushed(ds)
    decreases |ds|
  {
    if |ds| > 0 {
      var s' := ApplySide(o, s, ds[..|ds| - 1]);
      ApplySidePushes(o, s, ds[..|ds| - 1]);
      if !ShouldRemove(ds[|ds| - 1].qty) {
        PushBag(o, s'.heap, ds[|ds| - 1].price);
      }
    }
  }

  /** The quantity the last delta for `p` carries, if any delta mentions `p`. */
  function LastQty(ds: seq<Delta>, p: int): Option<int>
    decreases |ds|
  {
    if |ds| == 0 then None
    else if ds[|ds| - 1].price == p then Some(ds[|ds| - 1].qty)
    else LastQty(ds[..|ds| - 1], p)
  }

  /**
   Reference definition of a level after a batch: the last delta for the price wins
   (absent if it removes), and a price no delta mentions keeps its old entry.
   */
  function LevelAfter(old_: Option<int>, last: Option<int>): Option<int> {
    match last
    case None => old_
    case Some(q) => if ShouldRemove(q) then None else Some(q)
  }

  /** Applying a side's deltas leaves each level as its last delta says. */
  lemma {:induction false} ApplySideLastWins(o: Order, s: Side, ds: seq<Delta>, p: int)
    requires WellFormed(o, s)
    ensures Lookup(ApplySide(o, s, ds).levels, p) == LevelAfter(Lookup(s.levels, p), LastQty(ds, p))
    decreases |ds|
  {
    if |ds| > 0 {
      ApplySideLastWins(o, s, ds[..|ds| - 1], p);
    }
  }

  /** The functional form of processing one update message. */
  function Apply(b: Book, u: Update): (r: Book)
    requires ValidBook(b)
    ensures ValidBook(r)
  {
    Book(ApplySide(BidOrder, b.bids, u.b), ApplySide(AskOrder, b.asks, u.a))
  }

  function Max(x: int, y: int): int { if x >= y then x else y }
  function Min(x: int, y: int): int { if x <= y then x else y }

  /**
   The message handler's loop: for each index up to the longer of the two lists it
   applies the bid delta at that index (if any) and then the ask delta (if any).
   Interleaving the sides this way is the same as applying each side's deltas on
   its own, in order; the bid deltas never touch the asks, nor the other way round.
   */
  method ApplyUpdate(book: Book, u: Update) returns (r: Book)
    requires ValidBook(book)
    ensures r.bids == ApplySide(BidOrder, book.bids, u.b)
    ensures r.asks == ApplySide(AskOrder, book.asks, u.a)
    ensures ValidBook(r)
    ensures BookNoZero(book) ==> BookNoZero(r)
  {
    var length := Max(|u.b|, |u.a|);
    var bids, asks := book.bids, book.asks;
    var i := 0;
    while i < length
      invariant 0 <= i <= length
      invariant bids == ApplySide(BidOrder, book.bids, u.b[..Min(i, |u.b|)])
      invariant asks == ApplySide(AskOrder, book.asks, u.a[..Min(i, |u.a|)])
    {
      bids := StepSide(BidOrder, book.bids, u.b, i, bids);
      asks := StepSide(AskOrder, book.asks, u.a, i, asks);
      i := i + 1;
    }
    assert u.b[..Min(i, |u.b|)] == u.b;
    assert u.a[..Min(i, |u.a|)] == u.a;
    r := Book(bids, asks);
  }

  /** Index `i` of the handler's loop on one side: the side's delta at `i` is applied if it has one. */
  method StepSide(o: Order, s: Side, ds: seq<Delta>, i: nat, cur: Side) returns (next: Side)
    requires WellFormed(o, s) && cur == ApplySide(o, s, ds[..Min(i, |ds|)])
    ensures next == ApplySide(o, s, ds[..Min(i + 1, |ds|)])
  {
    ApplySideStep(o, s, ds, i);
    next := cur;
    if i < |ds| {
      next := ApplyDelta(o, cur, ds[i]);
    }
  }

  /** Index `i` of the batch loop moves a side's prefix on by its delta at `i`, if any. */
  lemma ApplySideStep(o: Order, s: Side, ds: seq<Delta>, i: nat)
    requires WellFormed(o, s)
    ensures i < |ds| ==>
              ApplySide(o, s, ds[..Min(i + 1, |ds|)]) == ApplyDelta(o, ApplySide(o, s, ds[..Min(i, |ds|)]), ds[i])
    ensures i >= |ds| ==> ApplySide(o, s, ds[..Min(i + 1, |ds|)]) == ApplySide(o, s, ds[..Min(i, |ds|)])
  {
    if i < |ds| {
      assert ds[..i + 1][..i] == ds[..i];
    }
  }

  /**
   Applying the same delta twice: a removal is idempotent outright; a setting leaves
   the same map as applying it once, but the heap holds two more copies of the price.
   */
  lemma ApplyDeltaTwice(o: Order, s: Side, d: Delta)
    requires WellFormed(o, s)
    ensures ApplyDelta(o, ApplyDelta(o, s, d), d).levels == ApplyDelta(o, s, d).levels
    ensures ShouldRemove(d.qty) ==> ApplyDelta(o, ApplyDelta(o, s, d), d) == ApplyDelta(o, s, d)
    ensures !ShouldRemove(d.qty) ==>
              multiset(ApplyDelta(o, ApplyDelta(o, s, d), d).heap) == multiset(s.heap) + multiset{d.price, d.price}
  {
    if !ShouldRemove(d.qty) {
      var once := ApplyDelta(o, s, d);
      PushBag(o, s.heap, d.price);
      PushBag(o, once.heap, d.price);
    }
  }

  /**
   The two sides of a batch do not interact: the bids after an update depend only
   on the old bids and the bid deltas, and the asks only on the old asks and the
   ask deltas.
   */
  lemma SidesIndependent(b: Book, u: Update, v: Update)
    requires ValidBook(b)
    ensures u.b == v.b ==> Apply(b, u).bids == Apply(b, v).bids
    ensures u.a == v.a ==> Apply(b, u).asks == Apply(b, v).asks
    ensures Apply(b, u).bids == Apply(Book(b.bids, EmptySide), Update(u.b, [])).bids
    ensures Apply(b, u).asks == Apply(Book(EmptySide, b.asks), Update([], u.a)).asks
  {
  }
}
